=== FILE: README.md ===
# Twitter-API core, modelled in Dafny

This project models the pure decision logic of a Twitter-like REST API written
in TypeScript (Express, express-validator, MongoDB). It covers seven pieces:

- **Create-tweet validation.** The per-field body checks run before a tweet is
  created: the type and audience enums, the content rule, the parent rule, and
  the element checks on hashtags, mentions and media.
- **Tweet lookup.** The lookup behind the tweet-id check: a tweet is found by
  id, and its likes, bookmarks, retweet, comment and quote counters are
  attached.
- **Audience gate.** Twitter Circle tweets are gated in a fixed order: access
  token, then author in good standing, then author or circle member.
- **Pagination.** The `limit`/`page` query check, the controllers'
  `Number(q) || default` fallbacks, and `Math.ceil(total / limit)`.
- **Conversations.** The exchange between two users, in either direction,
  newest first, one page at a time, with the total count. Also the controllers
  of the conversations and search endpoints.
- **Tweet record.** The `Tweet` record constructor and its defaults.
- **Upload helpers and enums.**
  - `getExtension` and `getNameFromFullName`.
  - The renaming of uploaded videos.
  - The image and video part filters.
  - `numberEnumToArray`.

Everything is a pure function over immutable datatypes. Collections are
sequences of records; a database lookup is a search in a sequence or a set.

Several JavaScript behaviours are modelled explicitly:

- truthiness;
- `String.prototype.trim`, with the ECMAScript white-space and line-terminator
  set;
- `split` and `join('')`;
- `includes`;
- the string comparison done by express-validator's `isIn`;
- a database `limit(0)` meaning "no limit".

`ObjectId.isValid` and `isMongoId` are abstract predicates. The clock read by
`new Date()` is a parameter, and so is the search service.

The enum declarations (constants/enums.ts) are not part of this model. The
model assumes the declaration orders below, numbered from 0:

- TweetType: Tweet, Retweet, Comment, QuoteTweet;
- TweetAudience: Everyone, TwitterCircle;
- MediaType: Image, Video, HLS;
- UserVerifyStatus: Unverified, Verified, Banned.

`CreateTweet.NumeralTypeEscapesRules` records one behaviour of the validator
as written. `isIn` compares the type as a string, but the content and parent
rules compare it strictly with a number. So a type sent as the numeral `"1"`
is accepted as a valid type while skipping the Retweet rules.

Modules, one per concern:

| file | module |
|---|---|
| wrappers.dfy | Wrappers |
| jsvalue.dfy | JsValue |
| jsstring.dfy | JsString |
| common.dfy | Common |
| enums.dfy | Enums |
| tweet_schema.dfy | TweetSchema |
| create_tweet.dfy | CreateTweet |
| engagement.dfy | Engagement |
| audience.dfy | Audience |
| pagination.dfy | Pagination |
| conversations.dfy | Conversations |
| file.dfy | FileUtil |
| search.dfy | Search |

## Model

| member | source | states |
|---|---|---|
| CreateTweet.CreateTweetErrors | src/middlewares/tweets.middlewares.ts:18-133 | The validator collects at most one error per field, at most seven in all, and none exactly when the body is well formed field by field (`WellFormed`). |
| CreateTweet.AcceptsIffWellFormed | src/middlewares/tweets.middlewares.ts:18-133 | The create-tweet validator reports no error exactly when the body is well formed field by field. Type and audience must be enum codes (number or numeral). Content, parent, hashtags, mentions and media must follow their rules. Absent media is allowed. |
| CreateTweet.NoErrorsIffEveryFieldPasses | src/middlewares/tweets.middlewares.ts:18-133 | Every schema field is checked independently: the request has no error exactly when each of the seven field checks passes. |
| CreateTweet.TypeCheck | src/middlewares/tweets.middlewares.ts:21-26 | The type field yields no error or exactly InvalidType. A number passes iff it is the code of a tweet type. A string passes iff it is the numeral of such a code. An array passes iff the string of each element is such a numeral, so `[]` passes. Any other value fails. |
| CreateTweet.AudienceCheck | src/middlewares/tweets.middlewares.ts:27-32 | The audience field yields no error or exactly InvalidAudience. A number passes iff it is the code of an audience. A string passes iff it is the numeral of such a code. An array passes iff the string of each element is such a numeral. Any other value fails. |
| CreateTweet.TypeCodes | src/middlewares/tweets.middlewares.ts:14-26 | `isIn` against tweetTypes, by the field's shape: a number iff it is a code, a string iff it is a code's numeral, an array iff each element's string is a code's numeral, nothing else. |
| CreateTweet.AudienceCodes | src/middlewares/tweets.middlewares.ts:15-32 | `isIn` against tweetAudiences, by the field's shape, as for the type. |
| CreateTweet.TypeNamed | src/middlewares/tweets.middlewares.ts:14-26 | A single value is among tweetTypes iff its string is the numeral of some tweet type's code. |
| CreateTweet.AudienceNamed | src/middlewares/tweets.middlewares.ts:15-32 | A single value is among tweetAudiences iff its string is the numeral of some audience's code. |
| CreateTweet.NamesCodeShape | src/middlewares/tweets.middlewares.ts:21-32 | `isIn` on one value against non-negative codes: a number iff it is a code, a string iff it is a code's numeral, a one-element array iff its element passes, a longer or empty array never, and no other value. |
| CreateTweet.ArrayTypes | src/middlewares/tweets.middlewares.ts:21-26 | The array types `[]` and `[1, "2"]` pass the type check. |
| CreateTweet.NestedPairType | src/middlewares/tweets.middlewares.ts:21-26 | The type `[[1, 2]]` fails, because its element is written "1,2". |
| JsValue.NumeralInjective | src/middlewares/tweets.middlewares.ts:21-32 | Distinct numbers have distinct decimal numerals, so comparing as strings compares the codes. |
| JsValue.ToJsStringIsNumeral | src/middlewares/tweets.middlewares.ts:21-32 | A value's string is the numeral of `c` iff it is the number `c`, the string of that numeral, or a one-element array whose element's string is; never for any other value. |
| CreateTweet.ContentCheck | src/middlewares/tweets.middlewares.ts:33-58 | The content field yields at most one error. ContentNotString iff the content is not a string. ContentMustBeEmptyString iff a Retweet's string content is not `''`. ContentMustBeNonEmptyString iff a Comment, QuoteTweet or Tweet has all-white-space content and both hashtags and mentions are absent or empty. |
| CreateTweet.ParentCheck | src/middlewares/tweets.middlewares.ts:59-81 | The parent_id field yields at most one error. ParentIdMustBeValidTweetId iff the type is a child type and parent_id is not a non-empty valid id of a stored tweet. ParentIdMustBeNull iff the type is Tweet and parent_id is neither null nor undefined. |
| CreateTweet.HashtagsCheck | src/middlewares/tweets.middlewares.ts:82-93 | The hashtags field yields at most one error. HashtagsNotArray iff hashtags is not an array. HashtagsMustBeStrings iff it is an array with some element that is not a string. |
| CreateTweet.MentionsCheck | src/middlewares/tweets.middlewares.ts:94-105 | The mentions field yields at most one error. MentionsNotArray iff mentions is not an array. MentionsMustBeUserIds iff it is an array with some element that is not a string accepted by `isValid`. |
| CreateTweet.MediaCheck | src/middlewares/tweets.middlewares.ts:106-129 | The media field yields at most one error. MediaNotArray iff media is defined and not an array. MediaMustBeMediaObjects iff it is an array with some element that is not a media object. |
| CreateTweet.ContentCheckIff | src/middlewares/tweets.middlewares.ts:33-58 | The content check passes iff the content is a string, a Retweet's content is exactly empty, and other types have a character `trim` keeps unless hashtags or mentions are non-empty. |
| CreateTweet.ParentCheckIff | src/middlewares/tweets.middlewares.ts:61-79 | The parent check passes iff child types carry a non-empty valid id of a stored tweet and plain tweets carry null or undefined. |
| CreateTweet.HashtagsCheckIff | src/middlewares/tweets.middlewares.ts:82-93 | The hashtags check passes iff hashtags is an array whose every element is a string. |
| CreateTweet.MentionsCheckIff | src/middlewares/tweets.middlewares.ts:94-105 | The mentions check passes iff mentions is an array whose every element is a string accepted by `isValid`. |
| CreateTweet.MediaCheckIff | src/middlewares/tweets.middlewares.ts:106-129 | The media check passes iff media is absent, or an array whose every element has a string url and a MediaType type. |
| CreateTweet.EveryIff | src/middlewares/tweets.middlewares.ts:87 | The element-by-element `every` holds iff the predicate holds at every index. |
| CreateTweet.RetweetContentMustBeEmpty | src/middlewares/tweets.middlewares.ts:41-44 | A Retweet's string content passes iff it is exactly `''`. Whitespace-only content is rejected with the must-be-empty error. |
| CreateTweet.BlankContentNeedsTagsOrMentions | src/middlewares/tweets.middlewares.ts:46-54 | For Comment, QuoteTweet and Tweet, blank content is rejected iff hashtags and mentions are both absent or empty. Otherwise it passes. |
| CreateTweet.ChildNeedsStoredParent | src/middlewares/tweets.middlewares.ts:64-73 | Retweet, Comment and QuoteTweet pass the parent check iff parent_id is a non-empty valid id naming a stored tweet. |
| CreateTweet.PlainTweetHasNoParent | src/middlewares/tweets.middlewares.ts:74-77 | A plain Tweet passes the parent check iff parent_id is null or undefined. |
| CreateTweet.EmptyArraysPass | src/middlewares/tweets.middlewares.ts:82-129 | Empty hashtags, mentions and media arrays pass their element checks vacuously. |
| CreateTweet.NumeralTypeEscapesRules | src/middlewares/tweets.middlewares.ts:21-26 | A type sent as the string "1" passes the type check, and the Retweet content and parent rules do not apply to it. |
| CreateTweet.UncheckedParentBreaksConstruction | src/middlewares/tweets.middlewares.ts:59-81 | A type sent as "1" with a non-empty parent string that is not an id passes the type and parent checks, yet constructing the record from it throws. |
| Engagement.CountersOf | src/middlewares/tweets.middlewares.ts:204-246 | Likes and bookmarks are the multiplicities of the tweet id among the like and bookmark records. retweet_count, comment_count and quote_count are each the number of stored tweets whose parent is the tweet and whose type is Retweet, Comment or QuoteTweet respectively. Together they never exceed the number of children. |
| Engagement.ChildrenCountedByType | src/middlewares/tweets.middlewares.ts:196-244 | Counting one type among the `tweet_children` lookup counts exactly the stored replies to the tweet of that type. |
| Engagement.CountOfType | src/middlewares/tweets.middlewares.ts:212-244 | A per-type count is at most the number of children, and is zero iff no child has that type. |
| Engagement.TypeCountsPartition | src/middlewares/tweets.middlewares.ts:212-244 | Counts over the four types sum to the number of children: every child is counted exactly once. |
| Engagement.ChildrenOf | src/middlewares/tweets.middlewares.ts:196-203 | The children are exactly the stored tweets whose parent is the given id. |
| Engagement.Occurrences | src/middlewares/tweets.middlewares.ts:206-211 | The `$size` of a lookup is zero iff the id does not occur and never exceeds the collection size. |
| Engagement.OccurrencesIsMultiplicity | src/middlewares/tweets.middlewares.ts:181-211 | The lookup size equals the multiplicity of the id in the collection. |
| Engagement.MarkedTweets | src/middlewares/tweets.middlewares.ts:180-195 | The tweet ids the like or bookmark records point at, index by index with the records. |
| Engagement.CountersAsWritten | src/middlewares/tweets.middlewares.ts:212-244 | As written (`eq` instead of `$eq`), all three type counts equal the number of children. Likes and bookmarks agree with the corrected counters. |
| Engagement.AsWrittenCountsEveryChild | src/middlewares/tweets.middlewares.ts:212-222 | A tweet with a single comment reports retweet_count 1 as written, and 0 retweets and 1 comment once corrected. |
| Engagement.FindTweet | src/middlewares/tweets.middlewares.ts:147 | The lookup returns a stored tweet with the id, and finds nothing iff no stored tweet has it. |
| Engagement.GetTweetWithCounters | src/middlewares/tweets.middlewares.ts:135-269 | A non-Mongo id is rejected. An id naming no stored tweet gives NotFound, and only then. The result is Ok iff the id is a Mongo id naming a stored tweet, and then it holds that stored tweet with its counters. |
| Engagement.UntouchedTweetHasZeroCounters | src/middlewares/tweets.middlewares.ts:204-246 | With no like, bookmark or child referencing the tweet, all five counters are 0. |
| Engagement.NewLikeCountsOnce | src/middlewares/tweets.middlewares.ts:209-211 | Adding one like of the tweet raises `likes` by one and changes no other counter. |
| Audience.AudienceGate | src/middlewares/tweets.middlewares.ts:271-300 | Everyone tweets pass. A Circle tweet without a token is Unauthorized. NotFound only for a signed-in requester with a missing or banned author. Forbidden only for a signed-in requester who is not the author. |
| Audience.FindUser | src/middlewares/tweets.middlewares.ts:282 | The lookup returns a user with the id, and finds nothing iff no user has it. |
| Audience.GatePassesIffMayView | src/middlewares/tweets.middlewares.ts:271-299 | With unique user ids, the gate passes exactly when the requester may view the tweet. That means an Everyone tweet, or a signed-in author or circle member of a stored, non-banned author. |
| Audience.UnauthorizedBeforeLookup | src/middlewares/tweets.middlewares.ts:275-280 | Without a token a Circle tweet is Unauthorized whatever the users collection holds. The author is never consulted. |
| Audience.AuthorPasses | src/middlewares/tweets.middlewares.ts:289-297 | The author of a tweet, stored and not banned, always passes. |
| Audience.OutsiderForbidden | src/middlewares/tweets.middlewares.ts:289-297 | A signed-in requester who is neither the author nor in the circle of a live author is Forbidden. |
| Audience.MissingOrBannedAuthorNotFound | src/middlewares/tweets.middlewares.ts:281-288 | A missing or banned author gives NotFound for every signed-in requester, circle members included. |
| Pagination.PaginationErrors | src/middlewares/tweets.middlewares.ts:316-337 | There is no error iff limit is numeric within [1, 100] and page is numeric. LimitNotNumeric arises iff limit is not numeric, LimitOutOfRange iff limit is a number outside [1, 100], and PageNotNumeric iff page is not numeric. |
| Pagination.NumberOr | src/controllers/search.controllers.ts:8-9 | `Number(q) \|\| d` gives the default iff the parameter is missing, non-numeric or zero (or equals the default). Any other result is the parameter itself. |
| Pagination.CheckedLimitIsUsed | src/middlewares/tweets.middlewares.ts:319-329 | A limit that passed the query check reaches the controller unchanged, within [1, 100]. |
| Pagination.CeilDiv | src/controllers/search.controllers.ts:20 | `Math.ceil(total / limit)` is a page count p with (p - 1) * limit < total <= p * limit. |
| Pagination.CeilDivUnique | src/controllers/search.controllers.ts:20 | Only one page count satisfies that bracket. |
| Pagination.CeilDivFormula | src/controllers/search.controllers.ts:20 | The page count equals (total + limit - 1) / limit. |
| Pagination.CeilDivExample | src/controllers/conversations.controllers.ts:20 | 150 items at 50 per page make 3 pages; 0 items make 0 pages; 101 at 10 make 11. |
| Search.SearchController | src/controllers/search.controllers.ts:7-25 | Limit defaults to 10 and page to 1, both are at least 1, and both are echoed. The service's tweets pass through unchanged. total_page covers the service's total exactly. |
| Search.DefaultPaging | src/controllers/search.controllers.ts:8-9 | Without paging parameters the service is asked for page 1 of 10. |
| Search.TotalPageIsCeiling | src/controllers/search.controllers.ts:20 | total_page is the ceiling of total over limit. |
| Conversations.Matching | src/services/conversations.services.ts:17-22 | Every selected message is between the two users, in either direction. Every such message is selected. Each message occurs in the selection exactly as often as in the collection when it is between the two users, and not at all otherwise. |
| Conversations.MatchingSymmetric | src/services/conversations.services.ts:18-21 | Swapping sender and receiver selects the same messages. |
| Conversations.InsertByNewest | src/services/conversations.services.ts:23 | Inserting into a newest-first sequence keeps it newest first and adds exactly the one message. |
| Conversations.SortByNewest | src/services/conversations.services.ts:23 | The sort result is newest first (descending created_at) and a permutation of its input. |
| Conversations.TiesKeepOrder | src/services/conversations.services.ts:23 | Two messages with equal created_at come out of the sort in collection order. |
| Conversations.NewestFirstOrdersAll | src/services/conversations.services.ts:23 | In a newest-first sequence every earlier message is at least as new as every later one. |
| Conversations.Window | src/services/conversations.services.ts:24-25 | skip/limit returns the consecutive slice starting at `skip`, of length min(limit, remaining). A limit of 0 means no limit. Skipping past the end gives nothing. |
| Conversations.WindowOfSorted | src/services/conversations.services.ts:23-25 | A window of a newest-first sequence is newest first, and its position k is position skip + k of the whole. |
| Conversations.GetConversations | src/services/conversations.services.ts:5-37 | The page holds only messages between the two users, newest first, of length min(limit, what remains after limit * (page - 1)) for a positive limit; a limit of 0 returns every match. The total is the number of matching messages. |
| Conversations.SwappedUsersSamePage | src/services/conversations.services.ts:18-21 | Swapping sender and receiver gives the same page and the same total (lines 27-32 too). |
| Conversations.TotalIgnoresPaging | src/services/conversations.services.ts:27-32 | The total does not depend on limit or page. |
| Conversations.PageHoldsRanks | src/services/conversations.services.ts:23-25 | With a positive limit, position j of page p is the sorted match of rank limit * (p - 1) + j. |
| Conversations.WindowAt | src/services/conversations.services.ts:24-25 | Position j of a window with a positive limit is position skip + j of the whole. |
| Conversations.EveryMessageOnSomePage | src/services/conversations.services.ts:16-32 | Every message between the two users appears on some page between 1 and the total. |
| Conversations.RankOf | src/services/conversations.services.ts:23 | Every matching message has a rank in the sorted exchange. |
| Conversations.RankPosition | src/services/conversations.services.ts:24 | Rank k falls on page k / limit + 1 at position k mod limit. |
| Conversations.SecondPageOfHundredFifty | src/services/conversations.services.ts:23-25 | With 150 matches and limit 50, page 2 is full and holds ranks 50 to 99, and there are 3 pages. |
| Conversations.GetConversationsController | src/controllers/conversations.controllers.ts:4-22 | Sender is the token's user and receiver the route's. Limit defaults to 20 and page to 1. The service's page is echoed. totalPage covers the number of matching messages exactly. |
| Conversations.PagePastLastIsEmpty | src/controllers/conversations.controllers.ts:4-22 | A page past totalPage is empty. |
| Conversations.PastLastOffset | src/services/conversations.services.ts:24 | Past the last page the skip reaches beyond every match. |
| TweetSchema.NewTweet | src/models/schemas/Tweet.schema.ts:36-65 | On an input whose id strings convert: `_id`, user, type, audience, content, hashtags and media are copied. Mentions become the ids of the mention strings, in order. parent_id is null iff it is missing or `''`, otherwise the id of the given string. Missing view counts give 0 and supplied ones are kept. Missing timestamps give the construction time and supplied ones are kept. |
| TweetSchema.ConstructTweet | src/models/schemas/Tweet.schema.ts:59-60 | The constructor throws iff a mention, or a non-empty parent id, is not an id string. The error names a string that does not convert: the first failing mention whenever some mention fails, otherwise the parent id. When nothing throws, the record is NewTweet's. |
| TweetSchema.FirstUnparsed | src/models/schemas/Tweet.schema.ts:59 | The first mention that does not convert, if any: none iff every mention converts; otherwise a mention that does not convert, with every earlier mention converting. |
| TweetSchema.FreshTimestampsAgree | src/models/schemas/Tweet.schema.ts:51-64 | With neither timestamp supplied, created_at and updated_at are equal, both the one construction time. |
| TweetSchema.ToObjectIds | src/models/schemas/Tweet.schema.ts:59 | Mentions map element-wise to ids, keeping length and order. |
| TweetSchema.MentionsRoundTrip | src/models/schemas/Tweet.schema.ts:59 | Mapping mention strings to ids and back gives the strings. |
| TweetSchema.RebuildIsIdentity | src/models/schemas/Tweet.schema.ts:36-65 | Constructing from an existing tweet's own fields reproduces it, for every clock value. The constructor's normalisation is idempotent, except that a parent wrapping `''` becomes null. |
| TweetSchema.CountOrZero | src/models/schemas/Tweet.schema.ts:61-62 | A missing view count gives 0; a supplied one is kept. |
| FileUtil.GetExtension | src/utils/file.ts:92-95 | The extension is the longest dot-free suffix of the trimmed name: the whole trimmed name or what follows its last dot. |
| FileUtil.GetNameFromFullName | src/utils/file.ts:86-90 | The base name is empty for a dotless name. Otherwise it is the trimmed name before its last dot, with every dot removed. It never contains a dot. |
| FileUtil.DotlessName | src/utils/file.ts:86-95 | A dotless name is its own extension (trimmed) and has an empty base name. |
| FileUtil.TrailingDot | src/utils/file.ts:93-94 | A trimmed name ending in a dot ("a.") has an empty extension. |
| FileUtil.SingleDotRoundTrip | src/utils/file.ts:86-95 | For a trimmed name with exactly one dot, base name + "." + extension rebuilds the trimmed name. |
| FileUtil.TwoDotName | src/utils/file.ts:86-95 | For a name like "a.b.jpg", the extension is "jpg" and the base name is "ab": the pieces are joined with `''`. |
| FileUtil.LastDotSplit | src/utils/file.ts:86-95 | Around the last dot, the last piece is the text after it and the other pieces join to the text before it, dots removed. |
| FileUtil.VideoPath | src/utils/file.ts:74-80 | The renamed path is the parser's path followed by a dot; read back with getExtension it gives the original name's extension whenever the path starts with a character `trim` keeps. |
| FileUtil.UnnamedVideoEndsInDot | src/utils/file.ts:74-80 | A video without an original file name is renamed to its path plus a bare ".". |
| FileUtil.VideoPathKeepsExtension | src/utils/file.ts:74-80 | The renamed video path, read back with getExtension, gives the extension of the original file name. |
| FileUtil.ExtensionAfterLastDot | src/utils/file.ts:92-95 | For a path with untrimmable ends, a dot and a dot-free extension, getExtension returns exactly that extension. |
| FileUtil.ExtensionEndsKept | src/utils/file.ts:92-95 | An extension is empty or ends in a character `trim` keeps. |
| FileUtil.MimetypeIncludes | src/utils/file.ts:26 | `mimetype?.includes(part)` holds iff a mimetype is present and the part occurs in it at some position. |
| FileUtil.AcceptsImage | src/utils/file.ts:25-31 | The image filter accepts iff the field is named `image` and the mimetype contains `image/`. |
| FileUtil.AcceptsVideo | src/utils/file.ts:55-61 | The video filter accepts iff the field is named `video` and the mimetype contains `mp4` or `quicktime`. |
| FileUtil.FiltersIgnoreOriginalName | src/utils/file.ts:25-61 | Neither filter depends on the original file name. |
| FileUtil.FiltersDisjoint | src/utils/file.ts:25-61 | No part passes both filters. |
| FileUtil.FilterExamples | src/utils/file.ts:25-61 | image/png under `image` passes; a missing mimetype fails; video/quicktime under `video` passes; video/mp4 under `image` fails the video filter. |
| Common.NumberEnumToArray | src/utils/common.ts:1-3 | The output is as long as the input minus its string entries. |
| Common.NumberEnumToArrayOnlyNumbers | src/utils/common.ts:2 | Every output number is a numeric entry of the input. |
| Common.NumberEnumToArrayKeepsNumbers | src/utils/common.ts:2 | Every numeric entry of the input is in the output. |
| Common.NumberEnumToArrayIsSubsequence | src/utils/common.ts:2 | The output is an order-preserving subsequence of the input values. |
| Common.NumberEnumToArrayOfNumbers | src/utils/common.ts:2 | Input without strings is returned whole. |
| Common.NumericEnumValues | src/utils/common.ts:1-3 | For a numeric enum (names, then numbers), the output is exactly the numbers in declaration order. |
| Enums.EnumCodeLists | src/middlewares/tweets.middlewares.ts:14-16 | tweetTypes, tweetAudiences and mediaTypes are exactly the members' codes, in order. |
| Enums.TweetTypeOfCode | src/middlewares/tweets.middlewares.ts:14 | A number names a tweet type iff it is that type's code. |
| Enums.TweetTypesAreCodes | src/middlewares/tweets.middlewares.ts:14 | A number is in tweetTypes iff it is the code of a tweet type. |
| JsString.Trim | src/utils/file.ts:87 | `trim` removes exactly the leading and trailing white space: a contiguous slice with kept ends, only trimmable characters cut off on either side. |
| JsString.TrimEmptyIff | src/middlewares/tweets.middlewares.ts:51 | A string trims to `''` iff every character is white space or a line terminator. |
| JsString.TrimIdempotent | src/utils/file.ts:87 | Trimming twice is trimming once. |
| JsString.Split | src/utils/file.ts:93 | `split` yields at least one piece; exactly one (the string) iff the separator does not occur. |
| JsString.JoinSplit | src/utils/file.ts:93 | Joining the pieces of `split` with the same separator rebuilds the string. |
| JsString.Without | src/utils/file.ts:87-89 | Removing every separator, which is what joining the pieces of a split with `''` amounts to (see SplitInit): the result holds no separator and is no longer than the input. |
| JsString.WithoutKeepsOthers | src/utils/file.ts:87-89 | Removing the separator keeps every other character, as often as it occurs: the result's multiset is the input's with the separator's count set to 0. |
| JsString.SplitLast | src/utils/file.ts:93-94 | The last piece of `split` is the longest separator-free suffix. |
| JsString.SplitInit | src/utils/file.ts:87-89 | The pieces before the last, joined with `''`, are the text before the last separator with every separator removed. |
| JsString.IncludesIff | src/utils/file.ts:26 | `includes` holds iff the part occurs at some position. |

## Left out

- I/O and framework plumbing are not modelled: formidable parsing, the folder
  creation and `renameSync`, sharp and HLS encoding, email, sockets, database
  connections, and the express-validator `validate` wrapper.
  - utils/validation.ts is not part of this model. The model assumes it
    reports the first error of each field.
- constants/enums.ts is not part of this model; the enum codes above are
  assumed.
- Query numbers are non-negative integers (`QueryNum`). `Number()` on
  negative, fractional or exponent strings needs floating point and is left
  out. For example, `Number("-3")` is truthy and would reach the service as a
  negative limit.
- `Pagination.NumberOr` treats every `QueryNum.NotNumeric` as NaN. `Number()`
  also parses strings that the `isNumeric` check rejects, such as `" 5"`
  (padded with white space) and `"0x10"` (hexadecimal), to 5 and 16; on such
  strings the controllers use that number where the model uses the default.
- `Conversations.GetConversations` requires `page >= 1`. The controller
  always supplies one, because `Number(q) || 1` is at least 1 for the
  modelled query numbers.
- `Conversations.SortByNewest` keeps messages with equal `created_at` in
  collection order. The database promises no order among them, so the model
  fixes one. `Conversations.TiesKeepOrder` proves it for two messages; the
  general stability is not stated as a lemma.
- `JsValue.ToJsString` writes an array element that is itself an array as
  its elements joined with `','`, which is `Array.prototype.toString`.
  express-validator releases that write such an array as its first element
  alone differ only for elements that are arrays of two or more values.
- Number values are integers (`JsValue.Num`). A fractional type or media
  type is left out.
- `ObjectId.isValid` and `isMongoId` are abstract predicates over strings.
  `ObjectId.isValid` on numbers and on 12-byte values is left out.
  `TweetSchema.ConstructTweet` takes the same kind of predicate for the
  strings `new ObjectId` accepts.
- `new ObjectId(s)` on an accepted string is modelled as wrapping the string,
  which makes it injective; normalisation of hex case is left out.
- The `$lookup` projections of hashtags and mentions, and the `$project` of
  `tweet_children`, only shape the returned document and are left out.
- `Conversations.GetConversations` takes both users as `ObjectId`s. The
  service builds them with `new ObjectId(...)` from the route parameter and
  the token (src/services/conversations.services.ts:18-21), which throws for
  a string that is not an id; that failure is left out, since the route
  parameter's check is not part of this model.
- `FileUtil.AcceptsImage` and `FileUtil.AcceptsVideo` model the boolean the
  filters return. A rejected part also makes the filter emit an `error` on
  the form (src/utils/file.ts:27-29 and 57-59), which fails the whole parse;
  that belongs to formidable's parsing, which is not part of this model.
- The conversations controller's `decoded_access_token?.user_id` is the
  parameter `tokenUserId`. A request without a token is left out: the route
  runs behind the access-token check.
- The search service is the parameter `search` of `Search.SearchController`;
  its query logic is not part of this model.
- getTweetChildrenValidator is the same `isIn` check on `tweet_type` as
  `CreateTweet.TypeCheck` on `type`, and is not modelled separately.
- View counting, feeds, likes, bookmarks and media controllers are thin
  wrappers over services not part of this model.

## Findings

| source | as written | input that shows it | evidently intended | confidence | as-written member | corrected member |
|---|---|---|---|---|---|---|
| src/middlewares/tweets.middlewares.ts:218, 229, 240 | The `$filter` conditions are `{ eq: [...] }`. A document literal with the key `eq` is truthy, so every child passes all three filters. | A tweet with one Comment child and no other children: retweet_count, comment_count and quote_count are all 1. | `{ $eq: [...] }`: each counter counts only the children of its type, so retweet_count is 0 and comment_count is 1. | medium, not executed | Engagement.AsWrittenCountsEveryChild | Engagement.CountersOf |

=== FILE: audience.dfy ===
/**
 * The audience gate run after a tweet has been looked up. Tweets for
 * everyone pass; a Twitter Circle tweet needs a signed-in requester, an
 * author who exists and is not banned, and a requester who is the author or
 * in the author's circle. The checks run in that order and the first failure
 * decides the response.
 */
module Audience {
  import opened Wrappers
  import opened Enums
  import opened TweetSchema

  datatype User = User(id: ObjectId, verify: UserVerifyStatus, twitterCircle: seq<ObjectId>)

  /** The gate's verdict: pass on, or the HTTP error class it raises. */
  datatype Gate = Pass | Unauthorized | NotFound | Forbidden

  /** `users.findOne({ _id })`: the first user with that id. */
  function FindUser(users: seq<User>, id: ObjectId): (r: Option<User>)
    ensures r.Some? ==> r.value in users && r.value.id == id
    ensures r.None? <==> forall k :: 0 <= k < |users| ==> users[k].id != id
  {
    if users == [] then None
    else if users[0].id == id then Some(users[0])
    else
      assert forall k :: 1 <= k < |users| ==> users[k] == users[1..][k - 1];
      FindUser(users[1..], id)
  }

  /** `requester` is the id from the access token, `None` when no valid token came with the request. */
  function AudienceGate(requester: Option<ObjectId>, tweet: Tweet, users: seq<User>): (g: Gate)
    ensures tweet.audience == Everyone ==> g == Pass
    ensures tweet.audience == TwitterCircle && requester.None? ==> g == Unauthorized
    ensures g == NotFound ==>
              && requester.Some?
              && (FindUser(users, tweet.userId).None? || FindUser(users, tweet.userId).value.verify == Banned)
    ensures g == Forbidden ==> requester.Some? && requester.value != tweet.userId
  {
    if tweet.audience != TwitterCircle then Pass
    else if requester.None? then Unauthorized
    else
      match FindUser(users, tweet.userId)
      case None => NotFound
      case Some(author) =>
        if author.verify == Banned then NotFound
        else
          var u := requester.value;
          var inCircle := u in author.twitterCircle;
          if !inCircle && author.id != u then Forbidden else Pass
  }

  /** Ids are unique in the users collection. */
  predicate UniqueIds(users: seq<User>) {
    forall i, j :: 0 <= i < j < |users| ==> users[i].id != users[j].id
  }

  /**
   * Who may read a tweet, stated over the users collection directly: anyone
   * for an everyone tweet; for a circle tweet, a signed-in requester whose
   * author is stored, not banned, and is the requester or counts the requester
   * in the circle.
   */
  predicate MayView(requester: Option<ObjectId>, tweet: Tweet, users: seq<User>) {
    || tweet.audience == Everyone
    || (&& requester.Some?
        && exists k :: && 0 <= k < |users|
                       && users[k].id == tweet.userId
                       && users[k].verify != Banned
                       && (requester.value == tweet.userId || requester.value in users[k].twitterCircle))
  }

  /** With unique user ids, the gate passes exactly the requesters allowed to view the tweet. */
  lemma GatePassesIffMayView(requester: Option<ObjectId>, tweet: Tweet, users: seq<User>)
    requires UniqueIds(users)
    ensures AudienceGate(requester, tweet, users) == Pass <==> MayView(requester, tweet, users)
  {
    if tweet.audience == TwitterCircle && requester.Some? {
      var found := FindUser(users, tweet.userId);
      if exists k :: 0 <= k < |users| && users[k].id == tweet.userId {
        var k :| 0 <= k < |users| && users[k].id == tweet.userId;
        var i :| 0 <= i < |users| && users[i] == found.value;
        assert i == k;
      }
    }
  }

  /** Without a token a circle tweet is refused before the author is looked up. */
  lemma UnauthorizedBeforeLookup(tweet: Tweet, users: seq<User>, others: seq<User>)
    requires tweet.audience == TwitterCircle
    ensures AudienceGate(None, tweet, users) == AudienceGate(None, tweet, others) == Unauthorized
  {
  }

  /** The author of a circle tweet always reads it, once the author record is in good standing. */
  lemma AuthorPasses(tweet: Tweet, users: seq<User>)
    requires FindUser(users, tweet.userId).Some?
    requires FindUser(users, tweet.userId).value.verify != Banned
    ensures AudienceGate(Some(tweet.userId), tweet, users) == Pass
  {
  }

  /** A signed-in requester outside the circle of a live author is forbidden, never told the tweet is missing. */
  lemma OutsiderForbidden(requester: ObjectId, tweet: Tweet, users: seq<User>)
    requires tweet.audience == TwitterCircle
    requires FindUser(users, tweet.userId).Some?
    requires FindUser(users, tweet.userId).value.verify != Banned
    requires requester != tweet.userId && requester !in FindUser(users, tweet.userId).value.twitterCircle
    ensures AudienceGate(Some(requester), tweet, users) == Forbidden
  {
  }

  /** A banned or missing author hides a circle tweet from every signed-in requester, circle members included. */
  lemma MissingOrBannedAuthorNotFound(requester: ObjectId, tweet: Tweet, users: seq<User>)
    requires tweet.audience == TwitterCircle
    requires FindUser(users, tweet.userId).None? || FindUser(users, tweet.userId).value.verify == Banned
    ensures AudienceGate(Some(requester), tweet, users) == NotFound
  {
  }
}

=== FILE: common.dfy ===
/**
 * `numberEnumToArray`: the numeric members of a TypeScript numeric enum.
 * A numeric enum object holds both directions of the mapping, so
 * `Object.values` yields the member names (strings, the reverse-mapping
 * entries) and the member numbers; the function keeps the numbers.
 */
module Common {

  /** One entry of `Object.values(enumObj)`: a string or a number. */
  datatype EnumValue = Name(name: string) | Number(n: int)

  function NumberEnumToArray(values: seq<EnumValue>): (r: seq<int>)
    ensures |r| + NameCount(values) == |values|
  {
    if values == [] then []
    else if values[0].Number? then [values[0].n] + NumberEnumToArray(values[1..])
    else NumberEnumToArray(values[1..])
  }

  /** Every output number is one of the input's numeric entries. */
  lemma {:induction false} NumberEnumToArrayOnlyNumbers(values: seq<EnumValue>, x: int)
    ensures x in NumberEnumToArray(values) ==> Number(x) in values
  {
    if values != [] {
      NumberEnumToArrayOnlyNumbers(values[1..], x);
    }
  }

  /** Every numeric entry of the input appears in the output. */
  lemma {:induction false} NumberEnumToArrayKeepsNumbers(values: seq<EnumValue>, x: int)
    ensures Number(x) in values ==> x in NumberEnumToArray(values)
  {
    if values != [] {
      NumberEnumToArrayKeepsNumbers(values[1..], x);
      assert Number(x) in values ==> values[0] == Number(x) || Number(x) in values[1..];
    }
  }

  /** The number of string entries (reverse-mapping keys) among the values. */
  function NameCount(values: seq<EnumValue>): nat {
    if values == [] then 0
    else (if values[0].Name? then 1 else 0) + NameCount(values[1..])
  }

  /** The numbers, seen again as enum values. */
  function AsValues(ns: seq<int>): (r: seq<EnumValue>)
    ensures |r| == |ns|
  {
    if ns == [] then [] else [Number(ns[0])] + AsValues(ns[1..])
  }

  /** `sub` is obtained from `s` by deleting entries, keeping the order of the rest. */
  predicate IsSubsequence(sub: seq<EnumValue>, s: seq<EnumValue>)
    decreases |s|
  {
    if sub == [] then true
    else if s == [] then false
    else if sub[0] == s[0] then IsSubsequence(sub[1..], s[1..])
    else IsSubsequence(sub, s[1..])
  }

  /** The output keeps the numeric entries in their input order. */
  lemma {:induction false} NumberEnumToArrayIsSubsequence(values: seq<EnumValue>)
    ensures IsSubsequence(AsValues(NumberEnumToArray(values)), values)
  {
    if values != [] {
      NumberEnumToArrayIsSubsequence(values[1..]);
      var tail := AsValues(NumberEnumToArray(values[1..]));
      if values[0].Number? {
        assert AsValues(NumberEnumToArray(values)) == [values[0]] + tail;
      } else {
        var out := AsValues(NumberEnumToArray(values));
        assert out == tail;
        if out != [] {
          assert out[0] != values[0];
        }
      }
    }
  }

  /** An enum without string entries (no reverse mapping) is returned whole. */
  lemma {:induction false} NumberEnumToArrayOfNumbers(ns: seq<int>)
    ensures NumberEnumToArray(AsValues(ns)) == ns
  {
    if ns != [] {
      NumberEnumToArrayOfNumbers(ns[1..]);
      assert AsValues(ns)[1..] == AsValues(ns[1..]);
    }
  }

  /** Member names, seen as enum values. */
  function AsNames(names: seq<string>): (r: seq<EnumValue>)
    ensures |r| == |names|
  {
    if names == [] then [] else [Name(names[0])] + AsNames(names[1..])
  }

  /**
   * `Object.values` of a numeric enum lists the names (reverse mapping) and
   * then the numbers; the result is exactly the numbers, in declaration order.
   */
  lemma {:induction false} NumericEnumValues(names: seq<string>, ns: seq<int>)
    ensures NumberEnumToArray(AsNames(names) + AsValues(ns)) == ns
  {
    if names == [] {
      assert AsNames(names) + AsValues(ns) == AsValues(ns);
      NumberEnumToArrayOfNumbers(ns);
    } else {
      NumericEnumValues(names[1..], ns);
      var rest := AsNames(names[1..]) + AsValues(ns);
      assert AsNames(names) + AsValues(ns) == [Name(names[0])] + rest;
      DropName(names[0], rest);
    }
  }

  /** A leading name entry is dropped. */
  lemma DropName(x: string, rest: seq<EnumValue>)
    ensures NumberEnumToArray([Name(x)] + rest) == NumberEnumToArray(rest)
  {
    assert ([Name(x)] + rest)[1..] == rest;
  }
}

=== FILE: conversations.dfy ===
/**
 * The conversation history between two users: the messages sent in either
 * direction, newest first, one page at a time, with the total number of
 * messages for the page count.
 */
module Conversations {
  import opened TweetSchema
  import opened Pagination

  datatype Conversation = Conversation(senderId: ObjectId, receiverId: ObjectId, content: string, createdAt: Time)

  /** The message went from `a` to `b` or from `b` to `a` (the `$or` filter). */
  predicate Between(c: Conversation, a: ObjectId, b: ObjectId) {
    (c.senderId == a && c.receiverId == b) || (c.senderId == b && c.receiverId == a)
  }

  /** The messages between `a` and `b`, in collection order. */
  function Matching(all: seq<Conversation>, a: ObjectId, b: ObjectId): (r: seq<Conversation>)
    ensures |r| <= |all|
    ensures forall k :: 0 <= k < |r| ==> Between(r[k], a, b)
    ensures forall c :: c in all && Between(c, a, b) ==> c in r
    ensures multiset(r) <= multiset(all)
    ensures forall c :: Between(c, a, b) ==> multiset(r)[c] == multiset(all)[c]
    ensures forall c :: !Between(c, a, b) ==> multiset(r)[c] == 0
  {
    if all == [] then []
    else
      var rest := Matching(all[1..], a, b);
      assert all == [all[0]] + all[1..];
      assert multiset(all) == multiset{all[0]} + multiset(all[1..]);
      ConsCounts(all[0], rest, all[1..], a, b);
      if Between(all[0], a, b) then
        assert multiset([all[0]] + rest) == multiset{all[0]} + multiset(rest);
        [all[0]] + rest
      else rest
  }

  /** One step of the filter: keeping `x` exactly when it matches keeps the counts exact. */
  lemma ConsCounts(x: Conversation, rest: seq<Conversation>, tail: seq<Conversation>, a: ObjectId, b: ObjectId)
    requires forall c :: Between(c, a, b) ==> multiset(rest)[c] == multiset(tail)[c]
    requires forall c :: !Between(c, a, b) ==> multiset(rest)[c] == 0
    ensures var r := if Between(x, a, b) then [x] + rest else rest;
            && (forall c :: Between(c, a, b) ==> multiset(r)[c] == multiset([x] + tail)[c])
            && (forall c :: !Between(c, a, b) ==> multiset(r)[c] == 0)
  {
    assert multiset([x] + tail) == multiset{x} + multiset(tail);
    assert multiset([x] + rest) == multiset{x} + multiset(rest);
  }

  /** Swapping the two users selects the same messages. */
  lemma {:induction false} MatchingSymmetric(all: seq<Conversation>, a: ObjectId, b: ObjectId)
    ensures Matching(all, a, b) == Matching(all, b, a)
  {
    if all != [] {
      MatchingSymmetric(all[1..], a, b);
    }
  }

  /** Each message is at least as new as the one after it. */
  predicate NewestFirst(s: seq<Conversation>) {
    forall i :: 0 < i < |s| ==> s[i - 1].createdAt >= s[i].createdAt
  }

  /** A newest-first sequence orders every pair, not only neighbours. */
  lemma {:induction false} NewestFirstOrdersAll(s: seq<Conversation>, i: nat, j: nat)
    requires NewestFirst(s) && i <= j < |s|
    ensures s[i].createdAt >= s[j].createdAt
    decreases j - i
  {
    if i < j {
      NewestFirstOrdersAll(s, i + 1, j);
    }
  }

  /**
   * Puts `c` after every strictly newer message and before the rest, keeping
   * the order newest first; a message as new as `c` stays behind it.
   */
  function InsertByNewest(c: Conversation, s: seq<Conversation>): (r: seq<Conversation>)
    requires NewestFirst(s)
    ensures NewestFirst(r)
    ensures multiset(r) == multiset(s) + multiset{c}
    ensures |r| == |s| + 1
    ensures r[0] == c || (s != [] && r[0] == s[0])
  {
    if s == [] || c.createdAt >= s[0].createdAt then
      PrependNewest(c, s);
      [c] + s
    else
      TailNewestFirst(s);
      var rest := InsertByNewest(c, s[1..]);
      InsertBehind(c, s, rest);
      [s[0]] + rest
  }

  /** `c` went in behind the head of `s`, which is strictly newer: the head stays in front. */
  lemma InsertBehind(c: Conversation, s: seq<Conversation>, rest: seq<Conversation>)
    requires NewestFirst(s) && s != [] && c.createdAt < s[0].createdAt
    requires NewestFirst(rest) && multiset(rest) == multiset(s[1..]) + multiset{c}
    requires rest != [] && (rest[0] == c || (s[1..] != [] && rest[0] == s[1..][0]))
    ensures NewestFirst([s[0]] + rest)
    ensures multiset([s[0]] + rest) == multiset(s) + multiset{c}
  {
    TailNewestFirst(s);
    PrependNewest(s[0], rest);
    assert s == [s[0]] + s[1..];
    assert multiset([s[0]] + rest) == multiset{s[0]} + multiset(rest);
  }

  /** Dropping the newest message leaves a newest-first sequence. */
  lemma TailNewestFirst(s: seq<Conversation>)
    requires NewestFirst(s) && s != []
    ensures NewestFirst(s[1..])
    ensures |s| > 1 ==> s[0].createdAt >= s[1].createdAt
  {
    forall i | 0 < i < |s| - 1 ensures s[1..][i - 1].createdAt >= s[1..][i].createdAt {
      assert s[1..][i - 1] == s[i] && s[1..][i] == s[i + 1];
    }
  }

  /** A message at least as new as the head of a newest-first sequence can go in front of it. */
  lemma PrependNewest(x: Conversation, t: seq<Conversation>)
    requires NewestFirst(t) && (t == [] || x.createdAt >= t[0].createdAt)
    ensures NewestFirst([x] + t)
  {
    var r := [x] + t;
    forall i | 0 < i < |r| ensures r[i - 1].createdAt >= r[i].createdAt {
      if i > 1 {
        assert r[i - 1] == t[i - 2] && r[i] == t[i - 1];
      }
    }
  }

  /**
   * `.sort({ created_at: -1 })`. Each message is inserted in front of the
   * sorted later ones that are no newer, so ties keep their collection order.
   */
  function SortByNewest(s: seq<Conversation>): (r: seq<Conversation>)
    ensures NewestFirst(r)
    ensures multiset(r) == multiset(s)
    ensures |r| == |s|
  {
    if s == [] then []
    else
      assert s == [s[0]] + s[1..];
      InsertByNewest(s[0], SortByNewest(s[1..]))
  }

  /** Two messages sent at the same time keep their collection order. */
  lemma TiesKeepOrder(x: Conversation, y: Conversation)
    requires x.createdAt == y.createdAt
    ensures SortByNewest([x, y]) == [x, y]
  {
    assert [x, y][1..] == [y];
    assert SortByNewest([y]) == [y] by {
      assert [y][1..] == [];
    }
  }

  /**
   * `.skip(skip).limit(limit)`: drop the first `skip` messages and keep at
   * most `limit` of the rest; a limit of 0 means no limit, as in the
   * database driver.
   */
  function Window(s: seq<Conversation>, skip: nat, limit: nat): (r: seq<Conversation>)
    ensures skip >= |s| ==> r == []
    ensures skip < |s| ==> skip + |r| <= |s| && r == s[skip..skip + |r|]
    ensures limit > 0 ==> |r| == Min(limit, |s| - Min(skip, |s|))
    ensures limit == 0 ==> |r| == |s| - Min(skip, |s|)
  {
    if skip >= |s| then []
    else if limit == 0 || skip + limit >= |s| then s[skip..]
    else s[skip..skip + limit]
  }

  function Min(a: int, b: int): int { if a <= b then a else b }

  /** The number of messages skipped before page `page`. */
  function Offset(limit: nat, page: nat): nat
    requires page >= 1
  {
    limit * (page - 1)
  }

  /** Without a limit every page starts at the first message. */
  lemma FirstPageOffset(limit: nat, page: nat)
    requires page >= 1
    ensures limit == 0 ==> Offset(limit, page) == 0
  {
  }

  /** A window of a newest-first sequence is newest first and drawn from it. */
  lemma WindowOfSorted(s: seq<Conversation>, skip: nat, limit: nat)
    requires NewestFirst(s)
    ensures NewestFirst(Window(s, skip, limit))
    ensures forall k :: 0 <= k < |Window(s, skip, limit)| ==> Window(s, skip, limit)[k] == s[skip + k]
  {
  }

  /** Sorting keeps the messages, so they all still lie between the two users. */
  lemma BetweenAll(sorted: seq<Conversation>, matching: seq<Conversation>, a: ObjectId, b: ObjectId)
    requires multiset(sorted) == multiset(matching)
    requires forall k :: 0 <= k < |matching| ==> Between(matching[k], a, b)
    ensures forall k :: 0 <= k < |sorted| ==> Between(sorted[k], a, b)
  {
    forall k | 0 <= k < |sorted| ensures Between(sorted[k], a, b) {
      assert sorted[k] in multiset(matching);
      var i :| 0 <= i < |matching| && matching[i] == sorted[k];
    }
  }

  datatype ConversationsPage = ConversationsPage(conversations: seq<Conversation>, total: nat)

  /** `getConversations`: the requested page of the exchange between the two users, and its total size. */
  function GetConversations(all: seq<Conversation>, senderId: ObjectId, receiverId: ObjectId, limit: nat, page: nat)
    : (r: ConversationsPage)
    requires page >= 1
    ensures forall k :: 0 <= k < |r.conversations| ==> Between(r.conversations[k], senderId, receiverId)
    ensures NewestFirst(r.conversations)
    ensures limit > 0 ==> |r.conversations| == Min(limit, r.total - Min(Offset(limit, page), r.total))
    ensures limit == 0 ==> |r.conversations| == r.total
    ensures r.total == |Matching(all, senderId, receiverId)|
    ensures r.total <= |all|
  {
    var matching := Matching(all, senderId, receiverId);
    var sorted := SortByNewest(matching);
    var conversations := Window(sorted, Offset(limit, page), limit);
    WindowOfSorted(sorted, Offset(limit, page), limit);
    FirstPageOffset(limit, page);
    BetweenAll(sorted, matching, senderId, receiverId);
    ConversationsPage(conversations, |matching|)
  }

  /** The conversation of `a` with `b` is the conversation of `b` with `a`, page and total alike. */
  lemma SwappedUsersSamePage(all: seq<Conversation>, a: ObjectId, b: ObjectId, limit: nat, page: nat)
    requires page >= 1
    ensures GetConversations(all, a, b, limit, page) == GetConversations(all, b, a, limit, page)
  {
    MatchingSymmetric(all, a, b);
  }

  /** The total does not depend on the page asked for. */
  lemma TotalIgnoresPaging(all: seq<Conversation>, a: ObjectId, b: ObjectId, l1: nat, p1: nat, l2: nat, p2: nat)
    requires p1 >= 1 && p2 >= 1
    ensures GetConversations(all, a, b, l1, p1).total == GetConversations(all, a, b, l2, p2).total
  {
  }

  /**
   * With a positive limit, page `page` holds the messages ranked
   * `limit * (page - 1)` up to `limit * page - 1`, newest first.
   */
  lemma PageHoldsRanks(all: seq<Conversation>, a: ObjectId, b: ObjectId, limit: nat, page: nat, j: nat)
    requires limit >= 1 && page >= 1 && j < limit
    requires Offset(limit, page) + j < |Matching(all, a, b)|
    ensures var r := GetConversations(all, a, b, limit, page);
            j < |r.conversations|
            && r.conversations[j] == SortByNewest(Matching(all, a, b))[Offset(limit, page) + j]
  {
    var sorted := SortByNewest(Matching(all, a, b));
    var off := Offset(limit, page);
    WindowAt(sorted, off, limit, j);
    assert GetConversations(all, a, b, limit, page).conversations == Window(sorted, off, limit);
  }

  /** Position `j` of a window with a positive limit is position `skip + j` of the whole. */
  lemma WindowAt(s: seq<Conversation>, skip: nat, limit: nat, j: nat)
    requires j < limit && skip + j < |s|
    ensures j < |Window(s, skip, limit)| && Window(s, skip, limit)[j] == s[skip + j]
  {
  }

  /** Every message between the two users is counted and shows up on the page covering its rank. */
  lemma EveryMessageOnSomePage(all: seq<Conversation>, a: ObjectId, b: ObjectId, limit: nat, c: Conversation)
    requires limit >= 1
    requires c in all && Between(c, a, b)
    ensures exists page :: 1 <= page <= GetConversations(all, a, b, limit, 1).total
                           && c in GetConversations(all, a, b, limit, page).conversations
  {
    var k := RankOf(all, a, b, c);
    var page, j := RankPosition(k, limit);
    PageHoldsRanks(all, a, b, limit, page, j);
    assert GetConversations(all, a, b, limit, page).conversations[j] == c;
  }

  /** A message between the two users has a rank in the sorted exchange. */
  lemma RankOf(all: seq<Conversation>, a: ObjectId, b: ObjectId, c: Conversation) returns (k: nat)
    requires c in all && Between(c, a, b)
    ensures k < |Matching(all, a, b)| && SortByNewest(Matching(all, a, b))[k] == c
  {
    var m := Matching(all, a, b);
    k := IndexOfMember(SortByNewest(m), m, c);
  }

  /** A member of `t` sits at some index of any rearrangement `s` of `t`. */
  lemma IndexOfMember(s: seq<Conversation>, t: seq<Conversation>, c: Conversation) returns (k: nat)
    requires multiset(s) == multiset(t) && c in t
    ensures k < |s| && s[k] == c
  {
    assert c in multiset(t);
    k :| 0 <= k < |s| && s[k] == c;
  }

  /** Rank `k` sits on page `k / limit + 1` at position `k % limit`. */
  lemma RankPosition(k: nat, limit: nat) returns (page: nat, j: nat)
    requires limit >= 1
    ensures 1 <= page <= k + 1 && j < limit && Offset(limit, page) + j == k
  {
    page := k / limit + 1;
    j := k % limit;
    assert limit * (k / limit) + k % limit == k;
    MultiplyMonotone(1, limit, k / limit);
  }

  /** 150 messages, 50 per page: page 2 is full and holds ranks 50 to 99; there are 3 pages. */
  lemma SecondPageOfHundredFifty(all: seq<Conversation>, a: ObjectId, b: ObjectId, j: nat)
    requires |Matching(all, a, b)| == 150 && j < 50
    ensures var r := GetConversations(all, a, b, 50, 2);
            && |r.conversations| == 50
            && r.conversations[j] == SortByNewest(Matching(all, a, b))[50 + j]
            && CeilDiv(r.total, 50) == 3
  {
    PageHoldsRanks(all, a, b, 50, 2, j);
    CeilDivUnique(150, 50, 3);
  }

  // ------------------------------------------------------------ controller

  datatype ConversationsResponse = ConversationsResponse(
    conversations: seq<Conversation>, limit: nat, page: nat, totalPage: nat)

  /**
   * `getConversationsController`: the sender is the signed-in user, the
   * receiver comes from the route, `limit` defaults to 20 and `page` to 1.
   */
  function GetConversationsController(
    tokenUserId: ObjectId, receiverId: ObjectId, limitQuery: QueryNum, pageQuery: QueryNum,
    all: seq<Conversation>): (resp: ConversationsResponse)
    ensures resp.limit >= 1 && resp.page >= 1
    ensures resp.limit == NumberOr(limitQuery, 20) && resp.page == NumberOr(pageQuery, 1)
    ensures Covers(resp.totalPage, resp.limit, |Matching(all, tokenUserId, receiverId)|)
    ensures resp.conversations == GetConversations(all, tokenUserId, receiverId, resp.limit, resp.page).conversations
  {
    var limit := NumberOr(limitQuery, 20);
    var page := NumberOr(pageQuery, 1);
    var result := GetConversations(all, tokenUserId, receiverId, limit, page);
    var totalPage := CeilDiv(result.total, limit);
    assert result.total == |Matching(all, tokenUserId, receiverId)|;
    ConversationsResponse(result.conversations, limit, page, totalPage)
  }

  /** A page past the last one is empty. */
  lemma PagePastLastIsEmpty(
    tokenUserId: ObjectId, receiverId: ObjectId, limitQuery: QueryNum, pageQuery: QueryNum, all: seq<Conversation>)
    ensures var resp := GetConversationsController(tokenUserId, receiverId, limitQuery, pageQuery, all);
            resp.page > resp.totalPage ==> resp.conversations == []
  {
    var resp := GetConversationsController(tokenUserId, receiverId, limitQuery, pageQuery, all);
    var total := |Matching(all, tokenUserId, receiverId)|;
    if resp.page > resp.totalPage {
      PastLastOffset(resp.totalPage, resp.page, resp.limit, total);
      var sorted := SortByNewest(Matching(all, tokenUserId, receiverId));
      assert |sorted| == total;
      assert resp.conversations == Window(sorted, Offset(resp.limit, resp.page), resp.limit);
    }
  }

  lemma PastLastOffset(totalPage: nat, page: nat, limit: nat, total: nat)
    requires page > totalPage && total <= totalPage * limit
    ensures Offset(limit, page) >= total
  {
    MultiplyMonotone(totalPage, page - 1, limit);
  }
}

=== FILE: create_tweet.dfy ===
/**
 * The body checks of the create-tweet request. Each field of the schema is
 * checked on its own and contributes at most one error (the first failing
 * check of its chain); the request is accepted when no field fails. Errors are
 * listed in the schema's field order: type, audience, content, parent_id,
 * hashtags, mentions, media.
 *
 * `ObjectId.isValid` is the abstract predicate `isValid` over strings, and
 * the tweets collection is the set `existing` of stored tweet ids.
 */
module CreateTweet {
  import opened Wrappers
  import opened JsValue
  import opened JsString
  import opened Enums
  import opened TweetSchema

  datatype RequestBody = RequestBody(
    tweetType: Value,
    audience: Value,
    content: Value,
    parentId: Value,
    hashtags: Value,
    mentions: Value,
    media: Value)

  datatype CreateTweetError =
    | InvalidType
    | InvalidAudience
    | ContentNotString
    | ContentMustBeEmptyString
    | ContentMustBeNonEmptyString
    | ParentIdMustBeValidTweetId
    | ParentIdMustBeNull
    | HashtagsNotArray
    | HashtagsMustBeStrings
    | MentionsNotArray
    | MentionsMustBeUserIds
    | MediaNotArray
    | MediaMustBeMediaObjects

  // ---------------------------------------------------------------- helpers

  /**
   * `isIn` on one value: the value's string, as express-validator writes it,
   * is the string of one of the codes.
   */
  predicate NamesCode(v: Value, codes: seq<int>) {
    exists k :: 0 <= k < |codes| && ToJsString(v) == ToJsString(Num(codes[k]))
  }

  /**
   * `isIn` on a field: express-validator checks an array element by element
   * (so `[]` passes) and any other value as a whole.
   */
  predicate IsInCodes(v: Value, codes: seq<int>) {
    match v
    case Arr(items) => forall k :: 0 <= k < |items| ==> NamesCode(items[k], codes)
    case _ => NamesCode(v, codes)
  }

  /** `value === TweetType.X` in the source: a strict comparison with a number. */
  predicate IsType(v: Value, t: TweetType) {
    v == Num(TweetTypeCode(t))
  }

  predicate IsChildType(v: Value) {
    IsType(v, Retweet) || IsType(v, Comment) || IsType(v, QuoteTweet)
  }

  predicate NeedsContent(v: Value) {
    IsType(v, Comment) || IsType(v, QuoteTweet) || IsType(v, TweetType.Tweet)
  }

  /** `items.every(p)`, checking the elements one by one from the first. */
  predicate Every(items: seq<Value>, p: Value -> bool) {
    items == [] || (p(items[0]) && Every(items[1..], p))
  }

  lemma {:induction false} EveryIff(items: seq<Value>, p: Value -> bool)
    ensures Every(items, p) <==> forall k :: 0 <= k < |items| ==> p(items[k])
  {
    if items != [] {
      EveryIff(items[1..], p);
      assert forall k :: 1 <= k < |items| ==> items[k] == items[1..][k - 1];
    }
  }

  /** A media item: an object whose `url` is a string and whose `type` is a media type number. */
  predicate IsMediaObject(item: Value) {
    && item.Obj?
    && "url" in item.fields && "type" in item.fields
    && item.fields["url"].Str?
    && item.fields["type"].Num? && item.fields["type"].n in MediaTypes()
  }

  // ---------------------------------------------------------- field checks

  /**
   * `type`: a number passes when it is the code of a tweet type, a string when
   * it is the numeral of one, an array when each element's string is such a
   * numeral; any other value fails.
   */
  function TypeCheck(body: RequestBody): (r: seq<CreateTweetError>)
    ensures r == [] || r == [InvalidType]
    ensures body.tweetType.Num? ==> (r == [] <==> exists t: TweetType :: TweetTypeCode(t) == body.tweetType.n)
    ensures body.tweetType.Str? ==>
              (r == [] <==> exists t: TweetType :: body.tweetType.s == Numeral(TweetTypeCode(t)))
    ensures body.tweetType.Arr? ==>
              (r == [] <==> forall k :: 0 <= k < |body.tweetType.items| ==>
                 exists t: TweetType :: ToJsString(body.tweetType.items[k]) == Numeral(TweetTypeCode(t)))
    ensures !body.tweetType.Num? && !body.tweetType.Str? && !body.tweetType.Arr? ==> r == [InvalidType]
  {
    TypeCodes(body.tweetType);
    if IsInCodes(body.tweetType, TweetTypes()) then [] else [InvalidType]
  }

  /** `audience`: as for the type, against the codes of the audiences. */
  function AudienceCheck(body: RequestBody): (r: seq<CreateTweetError>)
    ensures r == [] || r == [InvalidAudience]
    ensures body.audience.Num? ==> (r == [] <==> exists a: TweetAudience :: AudienceCode(a) == body.audience.n)
    ensures body.audience.Str? ==>
              (r == [] <==> exists a: TweetAudience :: body.audience.s == Numeral(AudienceCode(a)))
    ensures body.audience.Arr? ==>
              (r == [] <==> forall k :: 0 <= k < |body.audience.items| ==>
                 exists a: TweetAudience :: ToJsString(body.audience.items[k]) == Numeral(AudienceCode(a)))
    ensures !body.audience.Num? && !body.audience.Str? && !body.audience.Arr? ==> r == [InvalidAudience]
  {
    AudienceCodes(body.audience);
    if IsInCodes(body.audience, TweetAudiences()) then [] else [InvalidAudience]
  }

  /**
   * `isIn` on one value against non-negative codes, by the value's shape: a
   * number passes when it is a code, a string when it is a code's numeral, a
   * one-element array when its element passes; any other value fails.
   */
  lemma NamesCodeShape(v: Value, codes: seq<int>)
    requires forall k :: 0 <= k < |codes| ==> codes[k] >= 0
    ensures v.Num? ==> (NamesCode(v, codes) <==> v.n in codes)
    ensures v.Str? ==> (NamesCode(v, codes) <==> exists k :: 0 <= k < |codes| && v.s == Numeral(codes[k]))
    ensures v.Arr? && |v.items| == 1 ==> (NamesCode(v, codes) <==> NamesCode(v.items[0], codes))
    ensures v.Arr? && |v.items| != 1 ==> !NamesCode(v, codes)
    ensures !v.Num? && !v.Str? && !v.Arr? ==> !NamesCode(v, codes)
  {
    forall k | 0 <= k < |codes|
      ensures ToJsString(Num(codes[k])) == Numeral(codes[k])
      ensures v.Num? ==> (ToJsString(v) == Numeral(codes[k]) <==> v.n == codes[k])
      ensures v.Arr? && |v.items| == 1 ==>
                (ToJsString(v) == Numeral(codes[k]) <==> ToJsString(v.items[0]) == Numeral(codes[k]))
      ensures !v.Str? && !(v.Arr? && |v.items| == 1) && !v.Num? ==> ToJsString(v) != Numeral(codes[k])
    {
      ToJsStringIsNumeral(v, codes[k]);
    }
  }

  /** A single value names a tweet type exactly when its string is a type's numeral. */
  lemma TypeNamed(v: Value)
    ensures NamesCode(v, TweetTypes()) <==> exists t: TweetType :: ToJsString(v) == Numeral(TweetTypeCode(t))
  {
    var codes := TweetTypes();
    if NamesCode(v, codes) {
      var k :| 0 <= k < |codes| && ToJsString(v) == ToJsString(Num(codes[k]));
      TweetTypesAreCodes(codes[k]);
      var t := TweetTypeOfCode(codes[k]).value;
      assert ToJsString(v) == Numeral(TweetTypeCode(t));
    }
    if exists t: TweetType :: ToJsString(v) == Numeral(TweetTypeCode(t)) {
      var t: TweetType :| ToJsString(v) == Numeral(TweetTypeCode(t));
      var k := TweetTypeCode(t);
      assert codes[k] == k;
      assert ToJsString(Num(codes[k])) == Numeral(k);
    }
  }

  /** The `isIn` check on the type field, case by case. */
  lemma TypeCodes(v: Value)
    ensures v.Num? ==> (IsInCodes(v, TweetTypes()) <==> exists t: TweetType :: TweetTypeCode(t) == v.n)
    ensures v.Str? ==> (IsInCodes(v, TweetTypes()) <==> exists t: TweetType :: v.s == Numeral(TweetTypeCode(t)))
    ensures v.Arr? ==>
              (IsInCodes(v, TweetTypes()) <==> forall k :: 0 <= k < |v.items| ==>
                 exists t: TweetType :: ToJsString(v.items[k]) == Numeral(TweetTypeCode(t)))
    ensures !v.Num? && !v.Str? && !v.Arr? ==> !IsInCodes(v, TweetTypes())
  {
    if v.Arr? {
      forall k | 0 <= k < |v.items|
        ensures NamesCode(v.items[k], TweetTypes()) <==>
                exists t: TweetType :: ToJsString(v.items[k]) == Numeral(TweetTypeCode(t))
      {
        TypeNamed(v.items[k]);
      }
    } else {
      TypeNamed(v);
      NamesCodeShape(v, TweetTypes());
    }
  }

  /** A single value names an audience exactly when its string is an audience's numeral. */
  lemma AudienceNamed(v: Value)
    ensures NamesCode(v, TweetAudiences()) <==> exists a: TweetAudience :: ToJsString(v) == Numeral(AudienceCode(a))
  {
    var codes := TweetAudiences();
    var audiences := [Everyone, TwitterCircle];
    if NamesCode(v, codes) {
      var k :| 0 <= k < |codes| && ToJsString(v) == ToJsString(Num(codes[k]));
      assert codes[k] == AudienceCode(audiences[k]);
      assert ToJsString(v) == Numeral(AudienceCode(audiences[k]));
    }
    if exists a: TweetAudience :: ToJsString(v) == Numeral(AudienceCode(a)) {
      var a: TweetAudience :| ToJsString(v) == Numeral(AudienceCode(a));
      var k := AudienceCode(a);
      assert codes[k] == k;
      assert ToJsString(Num(codes[k])) == Numeral(k);
    }
  }

  /** The `isIn` check on the audience field, case by case. */
  lemma AudienceCodes(v: Value)
    ensures v.Num? ==> (IsInCodes(v, TweetAudiences()) <==> exists a: TweetAudience :: AudienceCode(a) == v.n)
    ensures v.Str? ==> (IsInCodes(v, TweetAudiences()) <==> exists a: TweetAudience :: v.s == Numeral(AudienceCode(a)))
    ensures v.Arr? ==>
              (IsInCodes(v, TweetAudiences()) <==> forall k :: 0 <= k < |v.items| ==>
                 exists a: TweetAudience :: ToJsString(v.items[k]) == Numeral(AudienceCode(a)))
    ensures !v.Num? && !v.Str? && !v.Arr? ==> !IsInCodes(v, TweetAudiences())
  {
    if v.Arr? {
      forall k | 0 <= k < |v.items|
        ensures NamesCode(v.items[k], TweetAudiences()) <==>
                exists a: TweetAudience :: ToJsString(v.items[k]) == Numeral(AudienceCode(a))
      {
        AudienceNamed(v.items[k]);
      }
    } else {
      AudienceNamed(v);
      NamesCodeShape(v, TweetAudiences());
    }
  }

  /**
   * express-validator checks an array-valued type element by element: an
   * empty array and an array of codes pass.
   */
  lemma ArrayTypes(body: RequestBody)
    ensures TypeCheck(body.(tweetType := Arr([]))) == []
    ensures TypeCheck(body.(tweetType := Arr([Num(1), Str("2")]))) == []
  {
    var codes := TweetTypes();
    var items := [Num(1), Str("2")];
    assert NamesCode(items[0], codes) by {
      assert ToJsString(items[0]) == ToJsString(Num(codes[1]));
    }
    assert NamesCode(items[1], codes) by {
      assert codes[2] == 2 && Numeral(2) == "2";
      assert ToJsString(items[1]) == ToJsString(Num(codes[2]));
    }
    assert IsInCodes(Arr(items), codes);
  }

  /** An element that is itself a two-element array is written "1,2", which is no code. */
  lemma NestedPairType(body: RequestBody)
    ensures TypeCheck(body.(tweetType := Arr([Arr([Num(1), Num(2)])]))) == [InvalidType]
  {
    var pair := Arr([Num(1), Num(2)]);
    assert !IsInCodes(Arr([pair]), TweetTypes()) by {
      NamesCodeShape(pair, TweetTypes());
      assert Arr([pair]).items[0] == pair;
    }
  }

  /**
   * `content`: must be a string; a Retweet's content must be exactly `''`;
   * other types need content that is not blank unless hashtags or mentions
   * are given.
   */
  function ContentCheck(body: RequestBody): (r: seq<CreateTweetError>)
    ensures r == [] || r == [ContentNotString] || r == [ContentMustBeEmptyString] || r == [ContentMustBeNonEmptyString]
    ensures r == [ContentNotString] <==> !body.content.Str?
    ensures r == [ContentMustBeEmptyString] <==>
              body.content.Str? && IsType(body.tweetType, Retweet) && body.content.s != ""
    ensures r == [ContentMustBeNonEmptyString] <==>
              && body.content.Str? && NeedsContent(body.tweetType)
              && AbsentOrEmpty(body.hashtags) && AbsentOrEmpty(body.mentions)
              && AllTrimmable(body.content.s)
  {
    if !body.content.Str? then [ContentNotString]
    else
      TrimEmptyIff(body.content.s);
      if IsType(body.tweetType, Retweet) && body.content.s != "" then [ContentMustBeEmptyString]
      else if && NeedsContent(body.tweetType)
              && AbsentOrEmpty(body.hashtags)
              && AbsentOrEmpty(body.mentions)
              && Trim(body.content.s) == ""
      then [ContentMustBeNonEmptyString]
      else []
  }

  /**
   * `parent_id`: a child type needs a truthy, valid id naming a stored tweet;
   * a plain tweet needs null or undefined; any other type value is not checked.
   */
  function ParentCheck(body: RequestBody, isValid: string -> bool, existing: set<ObjectId>): (r: seq<CreateTweetError>)
    ensures r == [] || r == [ParentIdMustBeValidTweetId] || r == [ParentIdMustBeNull]
    ensures r == [ParentIdMustBeValidTweetId] <==>
              && IsChildType(body.tweetType)
              && !(&& body.parentId.Str? && body.parentId.s != "" && isValid(body.parentId.s)
                   && ObjectId(body.parentId.s) in existing)
    ensures r == [ParentIdMustBeNull] <==>
              IsType(body.tweetType, TweetType.Tweet) && body.parentId != Null && body.parentId != Undefined
  {
    var v := body.parentId;
    if IsChildType(body.tweetType) then
      if Falsy(v) || !(v.Str? && isValid(v.s)) then [ParentIdMustBeValidTweetId]
      else if ObjectId(v.s) !in existing then [ParentIdMustBeValidTweetId]
      else []
    else if IsType(body.tweetType, TweetType.Tweet) && v != Null && v != Undefined then [ParentIdMustBeNull]
    else []
  }

  function HashtagsCheck(body: RequestBody): (r: seq<CreateTweetError>)
    ensures r == [] || r == [HashtagsNotArray] || r == [HashtagsMustBeStrings]
    ensures r == [HashtagsNotArray] <==> !body.hashtags.Arr?
    ensures r == [HashtagsMustBeStrings] <==>
              body.hashtags.Arr? && exists k :: 0 <= k < |body.hashtags.items| && !body.hashtags.items[k].Str?
  {
    if !body.hashtags.Arr? then [HashtagsNotArray]
    else
      EveryIff(body.hashtags.items, IsString);
      if !Every(body.hashtags.items, IsString) then [HashtagsMustBeStrings]
      else []
  }

  function MentionsCheck(body: RequestBody, isValid: string -> bool): (r: seq<CreateTweetError>)
    ensures r == [] || r == [MentionsNotArray] || r == [MentionsMustBeUserIds]
    ensures r == [MentionsNotArray] <==> !body.mentions.Arr?
    ensures r == [MentionsMustBeUserIds] <==>
              && body.mentions.Arr?
              && exists k :: 0 <= k < |body.mentions.items|
                             && !(body.mentions.items[k].Str? && isValid(body.mentions.items[k].s))
  {
    if !body.mentions.Arr? then [MentionsNotArray]
    else
      var isUserId := (item: Value) => item.Str? && isValid(item.s);
      EveryIff(body.mentions.items, isUserId);
      if !Every(body.mentions.items, isUserId) then [MentionsMustBeUserIds]
      else []
  }

  /** `media` is optional: an absent field is not checked at all. */
  function MediaCheck(body: RequestBody): (r: seq<CreateTweetError>)
    ensures r == [] || r == [MediaNotArray] || r == [MediaMustBeMediaObjects]
    ensures r == [MediaNotArray] <==> body.media != Undefined && !body.media.Arr?
    ensures r == [MediaMustBeMediaObjects] <==>
              body.media.Arr? && exists k :: 0 <= k < |body.media.items| && !IsMediaObject(body.media.items[k])
  {
    if body.media == Undefined then []
    else if !body.media.Arr? then [MediaNotArray]
    else
      EveryIff(body.media.items, IsMediaObject);
      if !Every(body.media.items, IsMediaObject) then [MediaMustBeMediaObjects]
      else []
  }

  /**
   * All field errors of a create-tweet request, in schema order; there are
   * none exactly when the request is well formed.
   */
  function CreateTweetErrors(body: RequestBody, isValid: string -> bool, existing: set<ObjectId>): (errors: seq<CreateTweetError>)
    ensures |errors| <= 7
    ensures errors == [] <==> WellFormed(body, isValid, existing)
  {
    ContentCheckIff(body);
    ParentCheckIff(body, isValid, existing);
    HashtagsCheckIff(body);
    MentionsCheckIff(body, isValid);
    MediaCheckIff(body);
    TypeCheck(body) + AudienceCheck(body) + ContentCheck(body) + ParentCheck(body, isValid, existing)
    + HashtagsCheck(body) + MentionsCheck(body, isValid) + MediaCheck(body)
  }

  // ------------------------------------------------ declarative reference

  /** The content has a character that `trim` keeps. */
  predicate HasVisibleChar(s: string) {
    exists k :: 0 <= k < |s| && !IsTrimmable(s[k])
  }

  /** Content rule, stated over the characters of the content. */
  predicate ContentOk(body: RequestBody) {
    && body.content.Str?
    && (IsType(body.tweetType, Retweet) ==> body.content.s == "")
    && ((NeedsContent(body.tweetType) && AbsentOrEmpty(body.hashtags) && AbsentOrEmpty(body.mentions))
          ==> HasVisibleChar(body.content.s))
  }

  /** Parent rule: children name a stored tweet by a valid non-empty id; plain tweets have none. */
  predicate ParentOk(body: RequestBody, isValid: string -> bool, existing: set<ObjectId>) {
    && (IsChildType(body.tweetType) ==>
          body.parentId.Str? && body.parentId.s != "" && isValid(body.parentId.s)
          && ObjectId(body.parentId.s) in existing)
    && (IsType(body.tweetType, TweetType.Tweet) ==> body.parentId == Null || body.parentId == Undefined)
  }

  predicate HashtagsOk(body: RequestBody) {
    body.hashtags.Arr? && forall k :: 0 <= k < |body.hashtags.items| ==> body.hashtags.items[k].Str?
  }

  predicate MentionsOk(body: RequestBody, isValid: string -> bool) {
    && body.mentions.Arr?
    && forall k :: 0 <= k < |body.mentions.items| ==>
         body.mentions.items[k].Str? && isValid(body.mentions.items[k].s)
  }

  predicate MediaOk(body: RequestBody) {
    body.media != Undefined ==>
      body.media.Arr? && forall k :: 0 <= k < |body.media.items| ==> IsMediaObject(body.media.items[k])
  }

  /** What a valid create-tweet request looks like, field by field. */
  predicate WellFormed(body: RequestBody, isValid: string -> bool, existing: set<ObjectId>) {
    && IsInCodes(body.tweetType, TweetTypes())
    && IsInCodes(body.audience, TweetAudiences())
    && ContentOk(body)
    && ParentOk(body, isValid, existing)
    && HashtagsOk(body)
    && MentionsOk(body, isValid)
    && MediaOk(body)
  }

  lemma ContentCheckIff(body: RequestBody)
    ensures ContentCheck(body) == [] <==> ContentOk(body)
  {
    if body.content.Str? {
      TrimEmptyIff(body.content.s);
    }
  }

  lemma HashtagsCheckIff(body: RequestBody)
    ensures HashtagsCheck(body) == [] <==> HashtagsOk(body)
  {
    if body.hashtags.Arr? {
      EveryIff(body.hashtags.items, IsString);
    }
  }

  lemma MentionsCheckIff(body: RequestBody, isValid: string -> bool)
    ensures MentionsCheck(body, isValid) == [] <==> MentionsOk(body, isValid)
  {
    if body.mentions.Arr? {
      EveryIff(body.mentions.items, (item: Value) => item.Str? && isValid(item.s));
    }
  }

  lemma MediaCheckIff(body: RequestBody)
    ensures MediaCheck(body) == [] <==> MediaOk(body)
  {
    if body.media.Arr? {
      EveryIff(body.media.items, IsMediaObject);
    }
  }

  /** The validator accepts exactly the well-formed requests. */
  lemma AcceptsIffWellFormed(body: RequestBody, isValid: string -> bool, existing: set<ObjectId>)
    ensures CreateTweetErrors(body, isValid, existing) == [] <==> WellFormed(body, isValid, existing)
  {
    NoErrorsIffEveryFieldPasses(body, isValid, existing);
    ContentCheckIff(body);
    ParentCheckIff(body, isValid, existing);
    HashtagsCheckIff(body);
    MentionsCheckIff(body, isValid);
    MediaCheckIff(body);
  }

  /** The error list is empty exactly when every field's check passes. */
  lemma NoErrorsIffEveryFieldPasses(body: RequestBody, isValid: string -> bool, existing: set<ObjectId>)
    ensures CreateTweetErrors(body, isValid, existing) == [] <==>
              && TypeCheck(body) == [] && AudienceCheck(body) == [] && ContentCheck(body) == []
              && ParentCheck(body, isValid, existing) == [] && HashtagsCheck(body) == []
              && MentionsCheck(body, isValid) == [] && MediaCheck(body) == []
  {
    var errors := CreateTweetErrors(body, isValid, existing);
    assert |errors| == |TypeCheck(body)| + |AudienceCheck(body)| + |ContentCheck(body)|
                       + |ParentCheck(body, isValid, existing)| + |HashtagsCheck(body)|
                       + |MentionsCheck(body, isValid)| + |MediaCheck(body)|;
  }

  lemma ParentCheckIff(body: RequestBody, isValid: string -> bool, existing: set<ObjectId>)
    ensures ParentCheck(body, isValid, existing) == [] <==> ParentOk(body, isValid, existing)
  {
  }

  // ----------------------------------------------- individual properties

  /** A Retweet's content passes exactly when it is the empty string; blank content is not enough. */
  lemma RetweetContentMustBeEmpty(body: RequestBody)
    requires IsType(body.tweetType, Retweet) && body.content.Str?
    ensures ContentCheck(body) == [] <==> body.content.s == ""
    ensures body.content.s != "" ==> ContentCheck(body) == [ContentMustBeEmptyString]
  {
  }

  /**
   * For the other types, blank content (nothing left after `trim`) is
   * rejected exactly when hashtags and mentions are both absent or empty.
   */
  lemma BlankContentNeedsTagsOrMentions(body: RequestBody)
    requires NeedsContent(body.tweetType) && body.content.Str?
    requires !HasVisibleChar(body.content.s)
    ensures (ContentCheck(body) == [ContentMustBeNonEmptyString])
              <==> (AbsentOrEmpty(body.hashtags) && AbsentOrEmpty(body.mentions))
    ensures ContentCheck(body) == [] <==> !(AbsentOrEmpty(body.hashtags) && AbsentOrEmpty(body.mentions))
  {
    TrimEmptyIff(body.content.s);
  }

  /** A child tweet passes the parent check exactly when its parent id is valid and stored. */
  lemma ChildNeedsStoredParent(body: RequestBody, isValid: string -> bool, existing: set<ObjectId>)
    requires IsChildType(body.tweetType)
    ensures ParentCheck(body, isValid, existing) == [] <==>
              body.parentId.Str? && body.parentId.s != "" && isValid(body.parentId.s)
              && ObjectId(body.parentId.s) in existing
  {
  }

  /** A plain tweet passes the parent check exactly when its parent id is null or missing. */
  lemma PlainTweetHasNoParent(body: RequestBody, isValid: string -> bool, existing: set<ObjectId>)
    requires IsType(body.tweetType, TweetType.Tweet)
    ensures ParentCheck(body, isValid, existing) == [] <==> body.parentId == Null || body.parentId == Undefined
  {
  }

  /** Empty hashtag, mention and media arrays pass their element checks. */
  lemma EmptyArraysPass(body: RequestBody, isValid: string -> bool)
    requires body.hashtags == Arr([]) && body.mentions == Arr([]) && body.media == Arr([])
    ensures HashtagsCheck(body) == [] && MentionsCheck(body, isValid) == [] && MediaCheck(body) == []
  {
  }

  /**
   * The type is compared as a string by `isIn` but strictly as a number by the
   * content and parent rules, so a type sent as the numeral "1" is accepted
   * while escaping the Retweet rules: content and a missing parent both pass.
   */
  lemma NumeralTypeEscapesRules(body: RequestBody, isValid: string -> bool, existing: set<ObjectId>)
    requires body.tweetType == Str("1") && body.content == Str("hello") && body.parentId == Undefined
    ensures TypeCheck(body) == []
    ensures ContentCheck(body) == [] && ParentCheck(body, isValid, existing) == []
  {
    assert TweetTypes()[1] == 1 && Numeral(1) == "1";
  }
  /**
   * The parent id of a type sent as a numeral is never looked at, so a parent
   * string that is not an id passes validation and only the record
   * constructor, converting it, throws.
   */
  lemma UncheckedParentBreaksConstruction(
    body: RequestBody, isValid: string -> bool, existing: set<ObjectId>, input: TweetInput, now: Time, p: string)
    requires body.tweetType == Str("1") && body.parentId == Str(p)
    requires p != "" && !isValid(p) && input.parentId == Some(p)
    ensures TypeCheck(body) == [] && ParentCheck(body, isValid, existing) == []
    ensures ConstructTweet(input, now, isValid).Err?
    ensures var e := ConstructTweet(input, now, isValid).error.text; e == p || e in input.mentions
  {
    assert TweetTypes()[1] == 1 && Numeral(1) == "1";
  }
}

=== FILE: engagement.dfy ===
/**
 * The tweet lookup of the tweet-id check: find the tweet by id and attach its
 * engagement counters, computed from the likes, bookmarks and child tweets
 * that reference it. The collections are sequences of records.
 */
module Engagement {
  import opened Wrappers
  import opened Enums
  import opened TweetSchema

  /** A like or a bookmark: both records link a user to a tweet. */
  datatype Mark = Mark(userId: ObjectId, tweetId: ObjectId)

  type Like = Mark
  type Bookmark = Mark

  datatype Counters = Counters(likes: nat, bookmarks: nat, retweetCount: nat, commentCount: nat, quoteCount: nat)

  /** A stored tweet with its counters added. */
  datatype TweetView = TweetView(tweet: Tweet, counters: Counters)

  datatype LookupError = InvalidTweetId | TweetNotFound

  /** How many of `ids` equal `id`. */
  function Occurrences(ids: seq<ObjectId>, id: ObjectId): (n: nat)
    ensures n <= |ids|
    ensures n == 0 <==> id !in ids
  {
    if ids == [] then 0
    else (if ids[0] == id then 1 else 0) + Occurrences(ids[1..], id)
  }

  /** The count is the multiplicity of `id` in the multiset of `ids`. */
  lemma {:induction false} OccurrencesIsMultiplicity(ids: seq<ObjectId>, id: ObjectId)
    ensures Occurrences(ids, id) == multiset(ids)[id]
  {
    if ids != [] {
      OccurrencesIsMultiplicity(ids[1..], id);
      assert ids == [ids[0]] + ids[1..];
      assert multiset(ids) == multiset([ids[0]]) + multiset(ids[1..]);
    }
  }

  /** The ids of the tweets a sequence of likes or bookmarks points at. */
  function MarkedTweets(marks: seq<Mark>): (r: seq<ObjectId>)
    ensures |r| == |marks|
    ensures forall k :: 0 <= k < |r| ==> r[k] == marks[k].tweetId
  {
    if marks == [] then [] else [marks[0].tweetId] + MarkedTweets(marks[1..])
  }

  /** The tweets whose parent is `id`, in collection order (the `tweet_children` lookup). */
  function ChildrenOf(tweets: seq<Tweet>, id: ObjectId): (r: seq<Tweet>)
    ensures |r| <= |tweets|
    ensures forall k :: 0 <= k < |r| ==> r[k].parentId == Some(id) && r[k] in tweets
    ensures forall t :: t in tweets && t.parentId == Some(id) ==> t in r
  {
    if tweets == [] then []
    else
      var rest := ChildrenOf(tweets[1..], id);
      assert forall t :: t in tweets ==> t == tweets[0] || t in tweets[1..];
      if tweets[0].parentId == Some(id) then [tweets[0]] + rest else rest
  }

  /** The number of tweets of type `t` (the corrected `$filter` on `$eq`). */
  function CountOfType(tweets: seq<Tweet>, t: TweetType): (n: nat)
    ensures n <= |tweets|
    ensures n == 0 <==> forall k :: 0 <= k < |tweets| ==> tweets[k].tweetType != t
  {
    if tweets == [] then 0
    else
      var rest := CountOfType(tweets[1..], t);
      assert forall k :: 1 <= k < |tweets| ==> tweets[k] == tweets[1..][k - 1];
      (if tweets[0].tweetType == t then 1 else 0) + rest
  }

  /** Every tweet has exactly one type, so the per-type counts add up to the total. */
  lemma {:induction false} TypeCountsPartition(tweets: seq<Tweet>)
    ensures CountOfType(tweets, TweetType.Tweet) + CountOfType(tweets, Retweet)
            + CountOfType(tweets, Comment) + CountOfType(tweets, QuoteTweet) == |tweets|
  {
    if tweets != [] {
      TypeCountsPartition(tweets[1..]);
    }
  }

  /** The stored tweets that reply to `id` with type `t`, counted in one pass over the collection. */
  function RepliesOfType(tweets: seq<Tweet>, id: ObjectId, t: TweetType): nat {
    if tweets == [] then 0
    else
      (if tweets[0].parentId == Some(id) && tweets[0].tweetType == t then 1 else 0)
      + RepliesOfType(tweets[1..], id, t)
  }

  /** Collecting the children first and then counting one type counts the replies of that type. */
  lemma {:induction false} ChildrenCountedByType(tweets: seq<Tweet>, id: ObjectId, t: TweetType)
    ensures CountOfType(ChildrenOf(tweets, id), t) == RepliesOfType(tweets, id, t)
  {
    if tweets != [] {
      ChildrenCountedByType(tweets[1..], id, t);
      var rest := ChildrenOf(tweets[1..], id);
      if tweets[0].parentId == Some(id) {
        assert ([tweets[0]] + rest)[1..] == rest;
      }
    }
  }

  /**
   * The counters of tweet `id` as the pipeline evidently intends them: likes
   * and bookmarks referencing it, and its children split by type.
   */
  function CountersOf(id: ObjectId, tweets: seq<Tweet>, likes: seq<Like>, bookmarks: seq<Bookmark>): (c: Counters)
    ensures c.likes == multiset(MarkedTweets(likes))[id]
    ensures c.bookmarks == multiset(MarkedTweets(bookmarks))[id]
    ensures c.retweetCount == RepliesOfType(tweets, id, Retweet)
    ensures c.commentCount == RepliesOfType(tweets, id, Comment)
    ensures c.quoteCount == RepliesOfType(tweets, id, QuoteTweet)
    ensures c.retweetCount + c.commentCount + c.quoteCount <= |ChildrenOf(tweets, id)|
  {
    var children := ChildrenOf(tweets, id);
    ChildrenCountedByType(tweets, id, Retweet);
    ChildrenCountedByType(tweets, id, Comment);
    ChildrenCountedByType(tweets, id, QuoteTweet);
    OccurrencesIsMultiplicity(MarkedTweets(likes), id);
    OccurrencesIsMultiplicity(MarkedTweets(bookmarks), id);
    TypeCountsPartition(children);
    Counters(
      likes := Occurrences(MarkedTweets(likes), id),
      bookmarks := Occurrences(MarkedTweets(bookmarks), id),
      retweetCount := CountOfType(children, Retweet),
      commentCount := CountOfType(children, Comment),
      quoteCount := CountOfType(children, QuoteTweet))
  }

  /**
   * The counters as the pipeline is written: its `$filter` conditions use the
   * key `eq` rather than the operator `$eq`, so each condition is a document
   * literal, which is truthy, and every child passes all three filters.
   */
  function CountersAsWritten(id: ObjectId, tweets: seq<Tweet>, likes: seq<Like>, bookmarks: seq<Bookmark>): (c: Counters)
    ensures c.retweetCount == c.commentCount == c.quoteCount == |ChildrenOf(tweets, id)|
    ensures c.likes == CountersOf(id, tweets, likes, bookmarks).likes
    ensures c.bookmarks == CountersOf(id, tweets, likes, bookmarks).bookmarks
  {
    var all := |ChildrenOf(tweets, id)|;
    Counters(
      likes := Occurrences(MarkedTweets(likes), id),
      bookmarks := Occurrences(MarkedTweets(bookmarks), id),
      retweetCount := all,
      commentCount := all,
      quoteCount := all)
  }

  /** A tweet with one comment: as written it also reports one retweet and one quote. */
  lemma AsWrittenCountsEveryChild(parent: Tweet, comment: Tweet, id: ObjectId)
    requires parent.id == Some(id) && parent.parentId.None?
    requires comment.parentId == Some(id) && comment.tweetType == Comment
    ensures CountersAsWritten(id, [parent, comment], [], []).retweetCount == 1
    ensures CountersOf(id, [parent, comment], [], []).retweetCount == 0
    ensures CountersOf(id, [parent, comment], [], []).commentCount == 1
  {
    assert ChildrenOf([parent, comment], id) == [comment] by {
      assert [parent, comment][1..] == [comment];
      assert ChildrenOf([comment], id) == [comment];
    }
  }

  /** The first stored tweet with the given id (`$match` on `_id`, then `[0]`). */
  function FindTweet(tweets: seq<Tweet>, id: ObjectId): (r: Option<Tweet>)
    ensures r.Some? ==> r.value in tweets && r.value.id == Some(id)
    ensures r.None? <==> forall k :: 0 <= k < |tweets| ==> tweets[k].id != Some(id)
  {
    if tweets == [] then None
    else if tweets[0].id == Some(id) then Some(tweets[0])
    else
      assert forall k :: 1 <= k < |tweets| ==> tweets[k] == tweets[1..][k - 1];
      FindTweet(tweets[1..], id)
  }

  /**
   * The tweet-id check: an id that is not a Mongo id is rejected, an id that
   * names no tweet is NotFound, otherwise the tweet comes back with its counters.
   */
  function GetTweetWithCounters(
    tweetId: string, isMongoId: string -> bool,
    tweets: seq<Tweet>, likes: seq<Like>, bookmarks: seq<Bookmark>): (r: Result<TweetView, LookupError>)
    ensures !isMongoId(tweetId) ==> r == Err(InvalidTweetId)
    ensures isMongoId(tweetId) ==>
              (r == Err(TweetNotFound) <==> forall k :: 0 <= k < |tweets| ==> tweets[k].id != Some(ObjectId(tweetId)))
    ensures r.Ok? <==>
              isMongoId(tweetId) && exists k :: 0 <= k < |tweets| && tweets[k].id == Some(ObjectId(tweetId))
    ensures r.Ok? ==> && r.value.tweet in tweets
                      && r.value.tweet.id == Some(ObjectId(tweetId))
                      && r.value.counters == CountersOf(ObjectId(tweetId), tweets, likes, bookmarks)
  {
    if !isMongoId(tweetId) then Err(InvalidTweetId)
    else
      var id := ObjectId(tweetId);
      match FindTweet(tweets, id)
      case None => Err(TweetNotFound)
      case Some(t) => Ok(TweetView(t, CountersOf(id, tweets, likes, bookmarks)))
  }

  /** A tweet nobody liked or bookmarked and nobody replied to has all counters zero. */
  lemma UntouchedTweetHasZeroCounters(id: ObjectId, tweets: seq<Tweet>, likes: seq<Like>, bookmarks: seq<Bookmark>)
    requires forall k :: 0 <= k < |likes| ==> likes[k].tweetId != id
    requires forall k :: 0 <= k < |bookmarks| ==> bookmarks[k].tweetId != id
    requires forall k :: 0 <= k < |tweets| ==> tweets[k].parentId != Some(id)
    ensures CountersOf(id, tweets, likes, bookmarks) == Counters(0, 0, 0, 0, 0)
  {
    assert id !in MarkedTweets(likes);
    assert id !in MarkedTweets(bookmarks);
  }

  /** One more like of the tweet raises its like count by one and changes nothing else. */
  lemma NewLikeCountsOnce(id: ObjectId, tweets: seq<Tweet>, likes: seq<Like>, bookmarks: seq<Bookmark>, u: ObjectId)
    ensures var before := CountersOf(id, tweets, likes, bookmarks);
            CountersOf(id, tweets, likes + [Mark(u, id)], bookmarks) == before.(likes := before.likes + 1)
  {
    var before := MarkedTweets(likes);
    var after := MarkedTweets(likes + [Mark(u, id)]);
    assert |after| == |before| + 1;
    assert forall k :: 0 <= k < |before| ==> after[k] == before[k];
    assert after == before + [id];
    assert multiset(after) == multiset(before) + multiset{id};
  }
}

=== FILE: enums.dfy ===
/**
 * The numeric enums the core consults. Their declarations live in
 * constants/enums.ts, which is not part of this model; the member order
 * below (and hence the numbers 0, 1, 2, ...) is the assumed one.
 */
module Enums {
  import opened Common
  import opened Wrappers

  datatype TweetType = Tweet | Retweet | Comment | QuoteTweet
  datatype TweetAudience = Everyone | TwitterCircle
  datatype MediaType = Image | Video | HLS
  datatype UserVerifyStatus = Unverified | Verified | Banned

  function TweetTypeCode(t: TweetType): int {
    match t
    case Tweet => 0
    case Retweet => 1
    case Comment => 2
    case QuoteTweet => 3
  }

  function AudienceCode(a: TweetAudience): int {
    match a
    case Everyone => 0
    case TwitterCircle => 1
  }

  function MediaTypeCode(m: MediaType): int {
    match m
    case Image => 0
    case Video => 1
    case HLS => 2
  }

  /** The tweet type a number stands for, if any. */
  function TweetTypeOfCode(n: int): (r: Option<TweetType>)
    ensures r.Some? ==> TweetTypeCode(r.value) == n
    ensures forall t: TweetType :: TweetTypeCode(t) == n ==> r == Some(t)
  {
    if n == 0 then Some(Tweet)
    else if n == 1 then Some(Retweet)
    else if n == 2 then Some(Comment)
    else if n == 3 then Some(QuoteTweet)
    else None
  }

  /** `Object.values(TweetType)`: the reverse-mapping names first, then the numbers. */
  const TweetTypeEnumValues: seq<EnumValue> :=
    AsNames(["Tweet", "Retweet", "Comment", "QuoteTweet"]) + AsValues([0, 1, 2, 3])

  /** `Object.values(TweetAudience)`. */
  const AudienceEnumValues: seq<EnumValue> :=
    AsNames(["Everyone", "TwitterCircle"]) + AsValues([0, 1])

  /** `Object.values(MediaType)`. */
  const MediaTypeEnumValues: seq<EnumValue> :=
    AsNames(["Image", "Video", "HLS"]) + AsValues([0, 1, 2])

  /** The codes of the tweet types, in declaration order. */
  function TweetTypes(): seq<int> {
    [TweetTypeCode(Tweet), TweetTypeCode(Retweet), TweetTypeCode(Comment), TweetTypeCode(QuoteTweet)]
  }

  /** The codes of the audiences, in declaration order. */
  function TweetAudiences(): seq<int> {
    [AudienceCode(Everyone), AudienceCode(TwitterCircle)]
  }

  /** The codes of the media types, in declaration order. */
  function MediaTypes(): seq<int> {
    [MediaTypeCode(Image), MediaTypeCode(Video), MediaTypeCode(HLS)]
  }

  /**
   * `tweetTypes`, `tweetAudiences` and `mediaTypes` of the tweet middlewares:
   * `numberEnumToArray` of each enum gives exactly its members' codes, in order.
   */
  lemma EnumCodeLists()
    ensures NumberEnumToArray(TweetTypeEnumValues) == TweetTypes()
    ensures NumberEnumToArray(AudienceEnumValues) == TweetAudiences()
    ensures NumberEnumToArray(MediaTypeEnumValues) == MediaTypes()
  {
    NumericEnumValues(["Tweet", "Retweet", "Comment", "QuoteTweet"], [0, 1, 2, 3]);
    NumericEnumValues(["Everyone", "TwitterCircle"], [0, 1]);
    NumericEnumValues(["Image", "Video", "HLS"], [0, 1, 2]);
  }

  /** A number is in `tweetTypes` exactly when it is the code of a tweet type. */
  lemma TweetTypesAreCodes(n: int)
    ensures n in TweetTypes() <==> TweetTypeOfCode(n).Some?
  {
  }
}

=== FILE: file.dfy ===
/**
 * The pure helpers of the upload utilities: the extension and base-name
 * helpers used when renaming uploaded files, and the part filters the image
 * and video upload handlers give to the multipart parser.
 */
module FileUtil {
  import opened Wrappers
  import opened JsString

  /**
   * `getExtension`: the last `'.'`-separated piece of the trimmed name, that
   * is, its longest suffix without a dot. A name without a dot is returned
   * whole (trimmed); `pop()` never meets an empty array because `split`
   * always yields at least one piece, and the `|| ''` fallback only maps `''`
   * to itself.
   */
  function GetExtension(fullName: string): (r: string)
    ensures var t := Trim(fullName);
            && |r| <= |t| && r == t[|t| - |r|..] && '.' !in r
            && (|r| == |t| || t[|t| - |r| - 1] == '.')
  {
    var t := Trim(fullName);
    SplitLast(t, '.');
    LastPiece(t, '.')
  }

  /**
   * `getNameFromFullName`: the trimmed name without its last piece, with the
   * remaining pieces joined by `''`, so every dot before the extension is
   * dropped as well ("a.b.jpg" gives "ab").
   */
  function GetNameFromFullName(fullName: string): (r: string)
    ensures var t := Trim(fullName);
            var e := LastPiece(t, '.');
            && (|e| >= |t| ==> r == [])
            && (|e| < |t| ==> r == Without(t[..|t| - |e| - 1], '.'))
    ensures '.' !in r
  {
    var t := Trim(fullName);
    SplitInit(t, '.');
    var r := InitPiecesJoined(t, '.');
    assert '.' !in r by {
      var e := LastPiece(t, '.');
      if |e| < |t| {
        assert r == Without(t[..|t| - |e| - 1], '.');
      }
    }
    r
  }

  /** A name without a dot is its own extension and has an empty base name. */
  lemma DotlessName(fullName: string)
    requires '.' !in Trim(fullName)
    ensures GetExtension(fullName) == Trim(fullName)
    ensures GetNameFromFullName(fullName) == []
  {
  }

  /** A trimmed name ending in a dot has an empty extension ("a." gives ""). */
  lemma TrailingDot(fullName: string)
    requires var t := Trim(fullName); |t| > 0 && t[|t| - 1] == '.'
    ensures GetExtension(fullName) == []
  {
  }

  /** A trimmed name with exactly one dot is its base name, a dot and its extension. */
  lemma SingleDotRoundTrip(fullName: string, i: nat)
    requires var t := Trim(fullName);
             && i < |t| && t[i] == '.' && '.' !in t[..i] && '.' !in t[i + 1..]
    ensures GetNameFromFullName(fullName) + "." + GetExtension(fullName) == Trim(fullName)
  {
    OneDotPieces(Trim(fullName), i);
  }

  /** Around a single dot, the pieces before and after it rebuild the string. */
  lemma OneDotPieces(t: string, i: nat)
    requires i < |t| && t[i] == '.' && '.' !in t[..i] && '.' !in t[i + 1..]
    ensures InitPiecesJoined(t, '.') + "." + LastPiece(t, '.') == t
  {
    LastDotSplit(t, i);
    WithoutDotless(t[..i], '.');
    assert t == t[..i] + "." + t[i + 1..];
  }

  /**
   * Splitting at the last dot: when `t[j]` is a dot and none follows, the last
   * piece is what follows it and the other pieces join to what precedes it,
   * without its dots.
   */
  lemma LastDotSplit(t: string, j: nat)
    requires j < |t| && t[j] == '.' && '.' !in t[j + 1..]
    ensures LastPiece(t, '.') == t[j + 1..]
    ensures InitPiecesJoined(t, '.') == Without(t[..j], '.')
  {
    SplitLast(t, '.');
    SplitInit(t, '.');
    var l := LastPiece(t, '.');
    assert |t| - |l| == j + 1;
  }

  /** Removing a character that does not occur changes nothing. */
  lemma {:induction false} WithoutDotless(s: string, c: char)
    requires c !in s
    ensures Without(s, c) == s
  {
    if s != [] {
      WithoutDotless(s[1..], c);
      assert s == [s[0]] + s[1..];
    }
  }

  /**
   * A name with two dots and no trimmable ends, such as "a.b.jpg": the
   * extension is the piece after the second dot and the base name is the other
   * two pieces run together ("ab").
   */
  lemma TwoDotName(x: string, y: string, z: string)
    requires '.' !in x && '.' !in y && '.' !in z
    requires x != [] && !IsTrimmable(x[0]) && z != [] && !IsTrimmable(z[|z| - 1])
    ensures GetExtension(x + "." + y + "." + z) == z
    ensures GetNameFromFullName(x + "." + y + "." + z) == x + y
  {
    var t := x + "." + y + "." + z;
    assert t[0] == x[0] && t[|t| - 1] == z[|z| - 1];
    UntrimmedEnds(t);
    var j := |x| + |y| + 1;
    assert t[j + 1..] == z;
    assert t[..j] == x + "." + y;
    LastDotSplit(t, j);
    DotsDropped(x, y, '.');
  }

  /** Removing `c` from two pieces free of it around one `c` runs the pieces together. */
  lemma {:induction false} DotsDropped(x: string, y: string, c: char)
    requires c !in x && c !in y
    ensures Without(x + [c] + y, c) == x + y
  {
    if x == [] {
      assert x + [c] + y == [c] + y;
      assert ([c] + y)[1..] == y;
      WithoutDotless(y, c);
    } else {
      DotsDropped(x[1..], y, c);
      KeptHead(x[0], x[1..] + [c] + y, c);
      assert x + [c] + y == [x[0]] + (x[1..] + [c] + y);
      assert x + y == [x[0]] + (x[1..] + y);
    }
  }

  /** A leading character other than `c` is kept when `c` is removed. */
  lemma KeptHead(d: char, s: string, c: char)
    requires d != c
    ensures Without([d] + s, c) == [d] + Without(s, c)
  {
    assert ([d] + s)[1..] == s;
  }

  /** A string that neither starts nor ends with a trimmable character is its own trim. */
  lemma UntrimmedEnds(t: string)
    requires t != [] && !IsTrimmable(t[0]) && !IsTrimmable(t[|t| - 1])
    ensures Trim(t) == t
  {
    assert FirstKept(t, 0) == 0;
    assert LastKept(t, 0, |t|) == |t|;
  }

  /**
   * The path an uploaded video is renamed to: the parser's file path, a dot and
   * the extension of the original file name, or of `''` when the parser
   * reports none.
   */
  function VideoPath(filepath: string, originalFilename: Option<string>): (r: string)
    ensures |r| > |filepath| && r[..|filepath|] == filepath && r[|filepath|] == '.'
    ensures filepath != [] && !IsTrimmable(filepath[0]) ==>
              GetExtension(r) == GetExtension(originalFilename.GetOr(""))
  {
    var e := GetExtension(originalFilename.GetOr(""));
    RenamedExtension(filepath, originalFilename.GetOr(""));
    DotJoin(filepath, e);
    filepath + "." + e
  }

  /** A path, a dot and an extension: the path comes first, then the dot. */
  lemma DotJoin(f: string, e: string)
    ensures var r := f + "." + e; |r| > |f| && r[..|f|] == f && r[|f|] == '.'
  {
  }

  /** The extension of a name, put after a path and a dot, is read back unchanged. */
  lemma RenamedExtension(f: string, name: string)
    ensures f != [] && !IsTrimmable(f[0]) ==> GetExtension(f + "." + GetExtension(name)) == GetExtension(name)
  {
    if f != [] && !IsTrimmable(f[0]) {
      ExtensionEndsKept(name);
      ExtensionAfterLastDot(f, GetExtension(name));
    }
  }

  /** Without an original name the renamed path ends in a bare dot. */
  lemma UnnamedVideoEndsInDot(filepath: string)
    ensures VideoPath(filepath, None) == filepath + "."
  {
    assert Trim("") == "";
    assert Split("", '.') == [""];
  }

  /**
   * The renamed video keeps the original's extension: read back with
   * `getExtension`, the new path gives the extension of the original name.
   */
  lemma VideoPathKeepsExtension(filepath: string, originalFilename: Option<string>)
    requires filepath != [] && !IsTrimmable(filepath[0])
    ensures GetExtension(VideoPath(filepath, originalFilename)) == GetExtension(originalFilename.GetOr(""))
  {
    var name := originalFilename.GetOr("");
    ExtensionEndsKept(name);
    ExtensionAfterLastDot(filepath, GetExtension(name));
  }

  /** An extension is a suffix of the trimmed name, so it does not end in white space. */
  lemma ExtensionEndsKept(name: string)
    ensures var e := GetExtension(name); e == [] || !IsTrimmable(e[|e| - 1])
  {
    var e := GetExtension(name);
    var t := Trim(name);
    if e != [] {
      assert e[|e| - 1] == t[|t| - 1];
    }
  }

  /** A path, a dot and a dot-free extension, with untrimmable ends, reads back that extension. */
  lemma ExtensionAfterLastDot(f: string, e: string)
    requires f != [] && !IsTrimmable(f[0])
    requires '.' !in e && (e == [] || !IsTrimmable(e[|e| - 1]))
    ensures GetExtension(f + "." + e) == e
  {
    var t := f + "." + e;
    assert t[0] == f[0];
    assert t[|t| - 1] == if e == [] then '.' else e[|e| - 1];
    UntrimmedEnds(t);
    assert t[|f|] == '.';
    assert t[|f| + 1..] == e;
    SplitLast(t, '.');
    var l := LastPiece(t, '.');
    assert |t| - |l| == |f| + 1;
  }

  /** What the multipart parser reports about one uploaded part. */
  datatype FilePart = FilePart(name: Option<string>, originalFilename: Option<string>, mimetype: Option<string>)

  /** `mimetype?.includes(part)`, with a missing mimetype counting as no match. */
  predicate MimetypeIncludes(mimetype: Option<string>, part: string)
    ensures MimetypeIncludes(mimetype, part) <==>
              mimetype.Some? && exists i :: OccursAt(mimetype.value, part, i)
  {
    if mimetype.Some? then
      IncludesIff(mimetype.value, part);
      Includes(mimetype.value, part)
    else false
  }

  /** The filter of `handleUploadImage`: a part named `image` whose mimetype mentions `image/`. */
  function AcceptsImage(p: FilePart): (valid: bool)
    ensures valid <==> p.name == Some("image") && p.mimetype.Some?
                       && exists i :: OccursAt(p.mimetype.value, "image/", i)
  {
    p.name == Some("image") && MimetypeIncludes(p.mimetype, "image/")
  }

  /** The filter of `handleUploadVideo`: a part named `video` whose mimetype mentions `mp4` or `quicktime`. */
  function AcceptsVideo(p: FilePart): (valid: bool)
    ensures valid <==> p.name == Some("video") && p.mimetype.Some?
                       && ((exists i :: OccursAt(p.mimetype.value, "mp4", i))
                           || (exists i :: OccursAt(p.mimetype.value, "quicktime", i)))
  {
    p.name == Some("video") && (MimetypeIncludes(p.mimetype, "mp4") || MimetypeIncludes(p.mimetype, "quicktime"))
  }

  /** The filters look at the field name and mimetype only, never at the original file name. */
  lemma FiltersIgnoreOriginalName(p: FilePart, other: Option<string>)
    ensures AcceptsImage(p) == AcceptsImage(p.(originalFilename := other))
    ensures AcceptsVideo(p) == AcceptsVideo(p.(originalFilename := other))
  {
  }

  /** No part passes both filters: the field names differ. */
  lemma FiltersDisjoint(p: FilePart)
    ensures !(AcceptsImage(p) && AcceptsVideo(p))
  {
  }

  lemma FilterExamples()
    ensures AcceptsImage(FilePart(Some("image"), None, Some("image/png")))
    ensures !AcceptsImage(FilePart(Some("image"), None, None))
    ensures AcceptsVideo(FilePart(Some("video"), None, Some("video/quicktime")))
    ensures !AcceptsVideo(FilePart(Some("image"), None, Some("video/mp4")))
  {
    assert OccursAt("image/png", "image/", 0);
    assert OccursAt("video/quicktime", "quicktime", 6);
  }
}

=== FILE: jsstring.dfy ===
/**
 * The JavaScript string operations the core relies on: `trim`, `split` on a
 * one-character separator, `join('')`, and `includes` on a substring.
 * Strings are `seq<char>`, a sequence of Unicode scalar values, where
 * JavaScript counts UTF-16 code units; the two lengths differ only for
 * characters outside the Basic Multilingual Plane, and nothing here depends
 * on a length beyond emptiness and the positions of `'.'`.
 */
module JsString {

  /**
   * The code points `String.prototype.trim` removes: the ECMAScript WhiteSpace
   * set (tab, vertical tab, form feed, space, no-break space, zero-width
   * no-break space and the Unicode space separators) and the LineTerminator set.
   */
  const Trimmable: set<char> := {
    '\t', '\n', '\U{000B}', '\U{000C}', '\r', ' ', '\U{00A0}', '\U{1680}',
    '\U{2000}', '\U{2001}', '\U{2002}', '\U{2003}', '\U{2004}', '\U{2005}',
    '\U{2006}', '\U{2007}', '\U{2008}', '\U{2009}', '\U{200A}',
    '\U{2028}', '\U{2029}', '\U{202F}', '\U{205F}', '\U{3000}', '\U{FEFF}'
  }

  predicate IsTrimmable(c: char) {
    c in Trimmable
  }

  /** Every character of `s` in the index range `[lo, hi)` is trimmable. */
  predicate TrimmableBetween(s: string, lo: int, hi: int) {
    forall k :: lo <= k < hi && 0 <= k < |s| ==> IsTrimmable(s[k])
  }

  predicate AllTrimmable(s: string) {
    TrimmableBetween(s, 0, |s|)
  }

  /** The first index at or after `i` whose character `trim` keeps (`|s|` if none). */
  function FirstKept(s: string, i: nat): (n: nat)
    requires i <= |s|
    ensures i <= n <= |s|
    ensures TrimmableBetween(s, i, n)
    ensures n == |s| || !IsTrimmable(s[n])
    decreases |s| - i
  {
    if i < |s| && IsTrimmable(s[i]) then FirstKept(s, i + 1) else i
  }

  /** One past the last index below `j` and at or after `lo` whose character `trim` keeps (`lo` if none). */
  function LastKept(s: string, lo: nat, j: nat): (n: nat)
    requires lo <= j <= |s|
    ensures lo <= n <= j
    ensures TrimmableBetween(s, n, j)
    ensures n == lo || !IsTrimmable(s[n - 1])
    decreases j
  {
    if j > lo && IsTrimmable(s[j - 1]) then LastKept(s, lo, j - 1) else j
  }

  /** Where the result of `s.trim()` starts in `s`. */
  function TrimStart(s: string): nat {
    FirstKept(s, 0)
  }

  /**
   * `s.trim()`: the infix of `s` left after removing trimmable characters from
   * both ends; it neither starts nor ends with one.
   */
  function Trim(s: string): (r: string)
    ensures TrimStart(s) + |r| <= |s| && r == s[TrimStart(s)..TrimStart(s) + |r|]
    ensures r == [] || (!IsTrimmable(r[0]) && !IsTrimmable(r[|r| - 1]))
    ensures TrimmableBetween(s, 0, TrimStart(s))
    ensures TrimmableBetween(s, TrimStart(s) + |r|, |s|)
  {
    var i := FirstKept(s, 0);
    s[i..LastKept(s, i, |s|)]
  }

  /** `s.trim() === ''` holds exactly when every character of `s` is trimmable. */
  lemma TrimEmptyIff(s: string)
    ensures Trim(s) == [] <==> AllTrimmable(s)
  {
    var i := TrimStart(s);
    if Trim(s) == [] {
      assert TrimmableBetween(s, 0, i) && TrimmableBetween(s, i, |s|);
    } else {
      assert s[i] == Trim(s)[0];
    }
  }

  /** Trimming is idempotent. */
  lemma TrimIdempotent(s: string)
    ensures Trim(Trim(s)) == Trim(s)
  {
    var r := Trim(s);
    assert FirstKept(r, 0) == 0;
    assert LastKept(r, 0, |r|) == |r|;
  }

  /** `s.split(sep)` for a one-character separator: the pieces between separators, in order. */
  function Split(s: string, sep: char): (r: seq<string>)
    ensures |r| >= 1
    ensures sep !in s ==> r == [s]
    ensures sep in s ==> |r| >= 2
  {
    if s == [] then [[]]
    else if s[0] == sep then [[]] + Split(s[1..], sep)
    else
      var t := Split(s[1..], sep);
      assert sep in s[1..] <==> sep in s;
      assert s == [s[0]] + s[1..];
      [[s[0]] + t[0]] + t[1..]
  }

  /** `parts.join('')`: the pieces concatenated with no separator. */
  function Concat(parts: seq<string>): string {
    if parts == [] then [] else parts[0] + Concat(parts[1..])
  }

  /** `parts.join(sep)` for a one-character separator. */
  function Join(parts: seq<string>, sep: char): string
    requires |parts| >= 1
  {
    if |parts| == 1 then parts[0] else parts[0] + [sep] + Join(parts[1..], sep)
  }

  /**
   * `s` with every occurrence of `c` removed; the other characters keep their
   * order, one step of the recursion at a time.
   */
  function Without(s: string, c: char): (r: string)
    ensures c !in r
    ensures |r| <= |s|
  {
    if s == [] then []
    else if s[0] == c then Without(s[1..], c)
    else [s[0]] + Without(s[1..], c)
  }

  /** Removing `c` keeps every other character, as often as it occurs. */
  lemma {:induction false} WithoutKeepsOthers(s: string, c: char)
    ensures multiset(Without(s, c)) == multiset(s)[c := 0]
  {
    if s != [] {
      WithoutKeepsOthers(s[1..], c);
      assert s == [s[0]] + s[1..];
      assert multiset(s) == multiset{s[0]} + multiset(s[1..]);
      if s[0] != c {
        assert Without(s, c) == [s[0]] + Without(s[1..], c);
        assert multiset(Without(s, c)) == multiset{s[0]} + multiset(Without(s[1..], c));
      }
    }
  }

  /** Splitting on `sep` and joining with `sep` gives back the original string. */
  lemma {:induction false} JoinSplit(s: string, sep: char)
    ensures Join(Split(s, sep), sep) == s
  {
    if s != [] {
      JoinSplit(s[1..], sep);
      JoinSplitStep(s, sep);
    }
  }

  /** One step of `JoinSplit`: the join of the split of `s` from that of `s[1..]`. */
  lemma JoinSplitStep(s: string, sep: char)
    requires s != [] && Join(Split(s[1..], sep), sep) == s[1..]
    ensures Join(Split(s, sep), sep) == s
  {
    var t := Split(s[1..], sep);
    assert s == [s[0]] + s[1..];
    if s[0] == sep {
      assert Split(s, sep) == [[]] + t;
      assert ([[]] + t)[1..] == t;
    } else {
      assert Split(s, sep) == [[s[0]] + t[0]] + t[1..];
      JoinPrepend(s[0], t, sep);
    }
  }

  /** Prepending a character to the first piece prepends it to the joined string. */
  lemma JoinPrepend(c: char, t: seq<string>, sep: char)
    requires |t| >= 1
    ensures Join([[c] + t[0]] + t[1..], sep) == [c] + Join(t, sep)
  {
    var p := [[c] + t[0]] + t[1..];
    assert p[1..] == t[1..];
  }

  /** The last piece of `s.split(sep)`. */
  function LastPiece(s: string, sep: char): string {
    var parts := Split(s, sep);
    parts[|parts| - 1]
  }

  /** All pieces of `s.split(sep)` but the last, concatenated (`pop()` then `join('')`). */
  function InitPiecesJoined(s: string, sep: char): string {
    var parts := Split(s, sep);
    Concat(parts[..|parts| - 1])
  }

  /**
   * The last piece of a split is the longest suffix without a separator: it is
   * either the whole string or preceded by a separator.
   */
  lemma {:induction false} SplitLast(s: string, sep: char)
    ensures var l := LastPiece(s, sep);
            && |l| <= |s| && l == s[|s| - |l|..] && sep !in l
            && (|l| == |s| || s[|s| - |l| - 1] == sep)
  {
    if s != [] {
      SplitLast(s[1..], sep);
      SplitLastStep(s, sep);
    }
  }

  /** One step of `SplitLast`: the last piece of `s` from that of `s[1..]`. */
  lemma SplitLastStep(s: string, sep: char)
    requires s != []
    requires var l := LastPiece(s[1..], sep);
             && |l| <= |s[1..]| && l == s[1..][|s[1..]| - |l|..] && sep !in l
             && (|l| == |s[1..]| || s[1..][|s[1..]| - |l| - 1] == sep)
    ensures var l := LastPiece(s, sep);
            && |l| <= |s| && l == s[|s| - |l|..] && sep !in l
            && (|l| == |s| || s[|s| - |l| - 1] == sep)
  {
    var rest := s[1..];
    var t := Split(rest, sep);
    if s[0] == sep {
      assert Split(s, sep) == [[]] + t;
    } else if |t| == 1 {
      assert Split(s, sep) == [s];
    } else {
      assert Split(s, sep) == [[s[0]] + t[0]] + t[1..];
    }
  }

  /**
   * All pieces but the last, joined with nothing between them, are the text
   * before the last separator with every separator removed (empty when there
   * is no separator).
   */
  lemma {:induction false} SplitInit(s: string, sep: char)
    ensures var l := LastPiece(s, sep);
            && (|l| >= |s| ==> InitPiecesJoined(s, sep) == [])
            && (|l| < |s| ==> InitPiecesJoined(s, sep) == Without(s[..|s| - |l| - 1], sep))
  {
    if s != [] {
      SplitInit(s[1..], sep);
      SplitLast(s[1..], sep);
      if s[0] == sep {
        SplitInitSep(s, sep);
      } else {
        SplitInitOther(s, sep);
      }
    }
  }

  lemma SplitInitSep(s: string, sep: char)
    requires s != [] && s[0] == sep
    requires var l := LastPiece(s[1..], sep);
             && |l| <= |s[1..]|
             && (|l| >= |s[1..]| ==> InitPiecesJoined(s[1..], sep) == [])
             && (|l| < |s[1..]| ==> InitPiecesJoined(s[1..], sep) == Without(s[1..][..|s[1..]| - |l| - 1], sep))
    ensures var l := LastPiece(s, sep);
            && (|l| >= |s| ==> InitPiecesJoined(s, sep) == [])
            && (|l| < |s| ==> InitPiecesJoined(s, sep) == Without(s[..|s| - |l| - 1], sep))
  {
    var rest := s[1..];
    PiecesAfterSep(s, sep);
    var l := LastPiece(rest, sep);
    var m := |s| - |l| - 1;
    if |l| < |rest| {
      assert s[..m][1..] == rest[..m - 1];
      assert Without(s[..m], sep) == Without(rest[..m - 1], sep);
    } else {
      assert s[..m] == [];
    }
  }

  /**
   * When `s` starts with a separator, the split of `s` has the same last
   * piece as that of `s[1..]` and its other pieces join to the same string.
   */
  lemma PiecesAfterSep(s: string, sep: char)
    requires s != [] && s[0] == sep
    ensures LastPiece(s, sep) == LastPiece(s[1..], sep)
    ensures InitPiecesJoined(s, sep) == InitPiecesJoined(s[1..], sep)
  {
    var t := Split(s[1..], sep);
    var p := Split(s, sep);
    assert p == [[]] + t;
    assert p[..|p| - 1] == [[]] + t[..|t| - 1];
    assert ([[]] + t[..|t| - 1])[1..] == t[..|t| - 1];
  }

  lemma SplitInitOther(s: string, sep: char)
    requires s != [] && s[0] != sep
    requires var l := LastPiece(s[1..], sep);
             && |l| <= |s[1..]| && l == s[1..][|s[1..]| - |l|..] && sep !in l
             && (|l| >= |s[1..]| ==> InitPiecesJoined(s[1..], sep) == [])
             && (|l| < |s[1..]| ==> InitPiecesJoined(s[1..], sep) == Without(s[1..][..|s[1..]| - |l| - 1], sep))
    ensures var l := LastPiece(s, sep);
            && (|l| >= |s| ==> InitPiecesJoined(s, sep) == [])
            && (|l| < |s| ==> InitPiecesJoined(s, sep) == Without(s[..|s| - |l| - 1], sep))
  {
    var rest := s[1..];
    var t := Split(rest, sep);
    var p := Split(s, sep);
    var l := t[|t| - 1];
    if |t| == 1 {
      assert s == [s[0]] + rest;
      assert p == [s];
    } else {
      PiecesAfterOther(s, sep);
      assert sep in rest;
      assert |l| < |rest|;
      var m := |s| - |l| - 1;
      assert s[..m][1..] == rest[..m - 1];
      assert Without(s[..m], sep) == [s[0]] + Without(rest[..m - 1], sep);
    }
  }

  /**
   * When `s` starts with a non-separator and `s[1..]` has a separator, the
   * split of `s` has the same last piece and its other pieces join to the
   * first character followed by those of `s[1..]`.
   */
  lemma PiecesAfterOther(s: string, sep: char)
    requires s != [] && s[0] != sep && |Split(s[1..], sep)| >= 2
    ensures LastPiece(s, sep) == LastPiece(s[1..], sep)
    ensures InitPiecesJoined(s, sep) == [s[0]] + InitPiecesJoined(s[1..], sep)
  {
    var t := Split(s[1..], sep);
    var p := Split(s, sep);
    assert p == [[s[0]] + t[0]] + t[1..];
    var q := t[..|t| - 1];
    assert p[..|p| - 1] == [[s[0]] + q[0]] + q[1..];
    ConcatPrepend(s[0], q);
  }

  /** Prepending a character to the first piece prepends it to the concatenation. */
  lemma ConcatPrepend(c: char, q: seq<string>)
    requires |q| >= 1
    ensures Concat([[c] + q[0]] + q[1..]) == [c] + Concat(q)
  {
    var p := [[c] + q[0]] + q[1..];
    assert p[1..] == q[1..];
  }

  /** `text.includes(part)` as a scan from the left. */
  function Includes(text: string, part: string): bool
    decreases |text|
  {
    (|part| <= |text| && text[..|part|] == part) || (|text| > 0 && Includes(text[1..], part))
  }

  /** `part` occurs in `text` at index `i`. */
  predicate OccursAt(text: string, part: string, i: int) {
    0 <= i && i + |part| <= |text| && text[i..i + |part|] == part
  }

  /** The scan finds `part` exactly when it occurs somewhere in `text`. */
  lemma {:induction false} IncludesIff(text: string, part: string)
    ensures Includes(text, part) <==> exists i :: OccursAt(text, part, i)
    decreases |text|
  {
    if |part| <= |text| && text[..|part|] == part {
      assert OccursAt(text, part, 0);
    }
    if |text| > 0 {
      IncludesIff(text[1..], part);
      if exists i :: OccursAt(text[1..], part, i) {
        var i :| OccursAt(text[1..], part, i);
        assert text[i + 1..i + 1 + |part|] == text[1..][i..i + |part|];
        assert OccursAt(text, part, i + 1);
      }
      if exists i :: OccursAt(text, part, i) {
        var i :| OccursAt(text, part, i);
        if i > 0 {
          assert text[1..][i - 1..i - 1 + |part|] == text[i..i + |part|];
          assert OccursAt(text[1..], part, i - 1);
        }
      }
    } else {
      if exists i :: OccursAt(text, part, i) {
        var i :| OccursAt(text, part, i);
        assert i == 0 && |part| == 0;
      }
    }
  }
}

=== FILE: jsvalue.dfy ===
/**
 * JSON-shaped JavaScript values as they arrive in a request body, and the
 * JavaScript notions of truthiness and `.length` that the validators use.
 * Numbers are integers here; floating point is not modelled.
 */
module JsValue {
  import JsString

  datatype Value =
    | Undefined
    | Null
    | Bool(b: bool)
    | Num(n: int)
    | Str(s: string)
    | Arr(items: seq<Value>)
    | Obj(fields: map<string, Value>)

  /** `!v` in JavaScript: the falsy values are undefined, null, false, 0 and the empty string. */
  predicate Falsy(v: Value) {
    match v
    case Undefined => true
    case Null => true
    case Bool(b) => !b
    case Num(n) => n == 0
    case Str(s) => s == []
    case Arr(_) => false
    case Obj(_) => false
  }

  /**
   * `v.length === 0` for a value that is not null or undefined: arrays and
   * strings have a length; any other value has one only through a `length` key.
   */
  predicate LengthIsZero(v: Value)
    requires v != Undefined && v != Null
  {
    match v
    case Arr(items) => items == []
    case Str(s) => s == []
    case Obj(fields) => "length" in fields && fields["length"] == Num(0)
    case _ => false
  }

  /** `!v || v.length === 0`, the "absent or empty" test applied to hashtags and mentions. */
  predicate AbsentOrEmpty(v: Value) {
    Falsy(v) || LengthIsZero(v)
  }

  /** The `typeof v === 'string'` test. */
  predicate IsString(v: Value) {
    v.Str?
  }

  /** The decimal numeral of a natural number, as `String(n)` writes it. */
  function Numeral(n: nat): (r: string)
    ensures |r| >= 1
    ensures forall k :: 0 <= k < |r| ==> '0' <= r[k] <= '9'
  {
    if n < 10 then [(('0' as int) + n) as char]
    else Numeral(n / 10) + [(('0' as int) + n % 10) as char]
  }

  /** Distinct numbers have distinct numerals. */
  lemma {:induction false} NumeralInjective(n: nat, m: nat)
    requires Numeral(n) == Numeral(m)
    ensures n == m
  {
    var a, b := Numeral(n), Numeral(m);
    if n >= 10 && m >= 10 {
      assert a[..|a| - 1] == Numeral(n / 10) && b[..|b| - 1] == Numeral(m / 10);
      NumeralInjective(n / 10, m / 10);
      assert a[|a| - 1] == b[|b| - 1];
    }
  }

  /**
   * The string express-validator hands to a standard validator: `''` for null
   * and undefined, decimal for numbers, and for objects their `toString()`,
   * which joins an array's elements with `','` and writes any other object as
   * `"[object Object]"`.
   */
  function ToJsString(v: Value): string {
    match v
    case Undefined => ""
    case Null => ""
    case Bool(b) => if b then "true" else "false"
    case Num(n) => if n >= 0 then Numeral(n) else "-" + Numeral(-n)
    case Str(s) => s
    case Arr(items) =>
      if items == [] then ""
      else JsString.Join(seq(|items|, k requires 0 <= k < |items| => ToJsString(items[k])), ',')
    case Obj(_) => "[object Object]"
  }

  /**
   * When a value's string is the numeral of `c`: a number exactly when it is
   * `c`, a string exactly when it is the numeral, a one-element array exactly
   * when its element's string is, and no other value.
   */
  lemma ToJsStringIsNumeral(v: Value, c: nat)
    ensures v.Num? ==> (ToJsString(v) == Numeral(c) <==> v.n == c)
    ensures v.Str? ==> (ToJsString(v) == Numeral(c) <==> v.s == Numeral(c))
    ensures v.Arr? && |v.items| == 1 ==> (ToJsString(v) == Numeral(c) <==> ToJsString(v.items[0]) == Numeral(c))
    ensures v.Arr? && |v.items| != 1 ==> ToJsString(v) != Numeral(c)
    ensures !v.Num? && !v.Str? && !v.Arr? ==> ToJsString(v) != Numeral(c)
  {
    var d := Numeral(c);
    match v
    case Num(n) =>
      if n >= 0 {
        if ToJsString(v) == d { NumeralInjective(n, c); }
      } else {
        assert ToJsString(v)[0] == '-';
      }
    case Arr(items) =>
      if |items| >= 2 {
        var parts := seq(|items|, k requires 0 <= k < |items| => ToJsString(items[k]));
        assert JsString.Join(parts, ',')[|parts[0]|] == ',';
      } else if |items| == 1 {
        var parts := seq(|items|, k requires 0 <= k < |items| => ToJsString(items[k]));
        assert JsString.Join(parts, ',') == ToJsString(items[0]);
      }
    case Bool(b) =>
      assert ToJsString(v)[0] !in "0123456789";
    case Obj(_) =>
      assert ToJsString(v)[0] == '[';
    case _ =>
  }
}

=== FILE: pagination.dfy ===
/**
 * Pagination arithmetic shared by the list endpoints: the query check on
 * `limit` and `page`, the controllers' `Number(q) || default` fallback, and
 * the page count `Math.ceil(total / limit)`.
 */
module Pagination {

  /** A numeric query parameter: missing, not numeric, or a non-negative integer. */
  datatype QueryNum = Absent | NotNumeric | Num(n: nat)

  datatype PaginationError = LimitNotNumeric | LimitOutOfRange | PageNotNumeric

  /**
   * The query check: `limit` must be numeric and within [1, 100]; `page` only
   * has to be numeric. A missing parameter is not numeric. For a non-numeric
   * limit the range test compares NaN and fails neither bound, so only the
   * numeric error is reported.
   */
  function PaginationErrors(limit: QueryNum, page: QueryNum): (errors: seq<PaginationError>)
    ensures errors == [] <==> limit.Num? && 1 <= limit.n <= 100 && page.Num?
    ensures LimitNotNumeric in errors <==> !limit.Num?
    ensures LimitOutOfRange in errors <==> limit.Num? && (limit.n < 1 || limit.n > 100)
    ensures PageNotNumeric in errors <==> !page.Num?
  {
    var limitErrors :=
      if !limit.Num? then [LimitNotNumeric]
      else if limit.n > 100 || limit.n < 1 then [LimitOutOfRange]
      else [];
    var pageErrors := if !page.Num? then [PageNotNumeric] else [];
    limitErrors + pageErrors
  }

  /** `Number(q) || default`: a missing, non-numeric or zero parameter gives the default. */
  function NumberOr(q: QueryNum, default: nat): (r: nat)
    ensures r == default <==> !q.Num? || q.n == 0 || q.n == default
    ensures r != default ==> q == Num(r)
  {
    if q.Num? && q.n != 0 then q.n else default
  }

  /** A limit that passed the check is used as given, whatever the controller's default. */
  lemma CheckedLimitIsUsed(limit: QueryNum, page: QueryNum, default: nat)
    requires PaginationErrors(limit, page) == []
    ensures NumberOr(limit, default) == limit.n
    ensures 1 <= NumberOr(limit, default) <= 100
  {
  }

  /** `pages` pages of `limit` items hold `total` items, and one page fewer would not. */
  predicate Covers(pages: int, limit: nat, total: nat) {
    (pages - 1) * limit < total <= pages * limit
  }

  /** `Math.ceil(total / limit)` for a positive limit: the least page count covering `total` items. */
  function CeilDiv(total: nat, limit: nat): (pages: nat)
    requires limit >= 1
    ensures Covers(pages, limit, total)
    decreases total
  {
    if total == 0 then 0
    else if total <= limit then 1
    else 1 + CeilDiv(total - limit, limit)
  }

  /** Only one page count satisfies the bracket, so it is the ceiling. */
  lemma CeilDivUnique(total: nat, limit: nat, pages: int)
    requires limit >= 1
    requires Covers(pages, limit, total)
    ensures pages == CeilDiv(total, limit)
  {
    var c: int := CeilDiv(total, limit);
    MultiplyMonotone(pages, c - 1, limit);
    MultiplyMonotone(c, pages - 1, limit);
  }

  lemma MultiplyMonotone(a: int, b: int, m: nat)
    ensures a <= b ==> a * m <= b * m
  {
  }

  /** The ceiling agrees with the usual integer formula. */
  lemma CeilDivFormula(total: nat, limit: nat)
    requires limit >= 1
    ensures CeilDiv(total, limit) == (total + limit - 1) / limit
  {
    var q := (total + limit - 1) / limit;
    var r := (total + limit - 1) % limit;
    assert q * limit + r == total + limit - 1;
    CeilDivUnique(total, limit, q);
  }

  lemma CeilDivExample()
    ensures CeilDiv(150, 50) == 3
    ensures CeilDiv(0, 10) == 0
    ensures CeilDiv(101, 10) == 11
  {
    CeilDivUnique(150, 50, 3);
    CeilDivUnique(101, 10, 11);
  }
}

=== FILE: search.dfy ===
/**
 * The search endpoint's controller: it fills in the paging defaults, asks
 * the search service for one page of tweets and the number of hits, and
 * reports the page count. The search service itself is not part of this
 * model; it is the parameter `search`, already holding the query text, the
 * filters and the signed-in user.
 */
module Search {
  import opened TweetSchema
  import opened Pagination

  datatype SearchResult = SearchResult(tweets: seq<Tweet>, total: nat)

  datatype SearchResponse = SearchResponse(tweets: seq<Tweet>, totalPage: nat, limit: nat, page: nat)

  /** `searchController`: `limit` defaults to 10 and `page` to 1. */
  function SearchController(limitQuery: QueryNum, pageQuery: QueryNum, search: (nat, nat) -> SearchResult)
    : (resp: SearchResponse)
    ensures resp.limit >= 1 && resp.page >= 1
    ensures resp.limit == NumberOr(limitQuery, 10) && resp.page == NumberOr(pageQuery, 1)
    ensures var result := search(resp.limit, resp.page);
            && resp.tweets == result.tweets
            && Covers(resp.totalPage, resp.limit, result.total)
  {
    var limit := NumberOr(limitQuery, 10);
    var page := NumberOr(pageQuery, 1);
    var result := search(limit, page);
    SearchResponse(result.tweets, CeilDiv(result.total, limit), limit, page)
  }

  /** Without paging parameters the service is asked for the first ten hits. */
  lemma DefaultPaging(search: (nat, nat) -> SearchResult)
    ensures var resp := SearchController(Absent, Absent, search);
            resp.limit == 10 && resp.page == 1 && resp.tweets == search(10, 1).tweets
  {
  }

  /** The reported page count is the ceiling of the hits over the limit. */
  lemma TotalPageIsCeiling(limitQuery: QueryNum, pageQuery: QueryNum, search: (nat, nat) -> SearchResult)
    ensures var resp := SearchController(limitQuery, pageQuery, search);
            resp.totalPage == (search(resp.limit, resp.page).total + resp.limit - 1) / resp.limit
  {
    var resp := SearchController(limitQuery, pageQuery, search);
    CeilDivFormula(search(resp.limit, resp.page).total, resp.limit);
  }
}

=== FILE: tweet_schema.dfy ===
/**
 * The stored tweet record and its constructor, which normalises the request
 * fields: mention strings become ids, an empty or missing parent becomes
 * null, and missing counters and timestamps get their defaults.
 */
module TweetSchema {
  import opened Wrappers
  import opened Enums

  /** A document id; `new ObjectId(s)` is modelled as wrapping the hex string `s`. */
  datatype ObjectId = ObjectId(hex: string)

  /** A media descriptor attached to a tweet. */
  datatype Media = Media(url: string, mediaType: MediaType)

  /** Timestamps are milliseconds since the epoch. */
  type Time = int

  datatype Tweet = Tweet(
    id: Option<ObjectId>,
    userId: ObjectId,
    tweetType: TweetType,
    audience: TweetAudience,
    content: string,
    parentId: Option<ObjectId>,
    hashtags: seq<ObjectId>,
    mentions: seq<ObjectId>,
    media: seq<Media>,
    guestViews: int,
    userViews: int,
    createdAt: Time,
    updatedAt: Time)

  /** The constructor's argument; optional fields are `None` when not supplied. */
  datatype TweetInput = TweetInput(
    id: Option<ObjectId>,
    userId: ObjectId,
    tweetType: TweetType,
    audience: TweetAudience,
    content: string,
    parentId: Option<string>,
    hashtags: seq<ObjectId>,
    mentions: seq<string>,
    media: seq<Media>,
    guestViews: Option<int>,
    userViews: Option<int>,
    createdAt: Option<Time>,
    updatedAt: Option<Time>)

  /** `ids.map((item) => new ObjectId(item))`. */
  function ToObjectIds(ids: seq<string>): (r: seq<ObjectId>)
    ensures |r| == |ids|
    ensures forall k :: 0 <= k < |r| ==> r[k].hex == ids[k]
  {
    if ids == [] then [] else [ObjectId(ids[0])] + ToObjectIds(ids[1..])
  }

  /** The hex strings of a sequence of ids. */
  function Hexes(ids: seq<ObjectId>): (r: seq<string>)
    ensures |r| == |ids|
    ensures forall k :: 0 <= k < |r| ==> r[k] == ids[k].hex
  {
    if ids == [] then [] else [ids[0].hex] + Hexes(ids[1..])
  }

  /**
   * `x || 0` for an optional count: a missing value and 0 both give 0, any
   * other supplied value is kept.
   */
  function CountOrZero(x: Option<int>): (r: int)
    ensures x.None? ==> r == 0
    ensures x.Some? ==> r == x.value
  {
    match x
    case None => 0
    case Some(v) => if v != 0 then v else 0
  }

  /**
   * `new Tweet({...})` on an input whose id strings all convert, with `now`
   * standing for the `new Date()` read once at the start of the constructor.
   * A `Date` object is always truthy, so a supplied timestamp is always kept;
   * a parent id is kept only when it is a non-empty string. The conversion
   * failure is `ConstructTweet`.
   */
  function NewTweet(input: TweetInput, now: Time): (t: Tweet)
    ensures t.id == input.id && t.userId == input.userId
    ensures t.tweetType == input.tweetType && t.audience == input.audience
    ensures t.content == input.content && t.hashtags == input.hashtags && t.media == input.media
    ensures |t.mentions| == |input.mentions|
    ensures forall k :: 0 <= k < |t.mentions| ==> t.mentions[k] == ObjectId(input.mentions[k])
    ensures t.parentId.None? <==> (input.parentId.None? || input.parentId == Some(""))
    ensures t.parentId.Some? ==> input.parentId == Some(t.parentId.value.hex)
    ensures input.guestViews.None? ==> t.guestViews == 0
    ensures input.userViews.None? ==> t.userViews == 0
    ensures input.guestViews.Some? ==> t.guestViews == input.guestViews.value
    ensures input.userViews.Some? ==> t.userViews == input.userViews.value
    ensures t.createdAt == (if input.createdAt.Some? then input.createdAt.value else now)
    ensures t.updatedAt == (if input.updatedAt.Some? then input.updatedAt.value else now)
  {
    var parent := match input.parentId
      case Some(p) => if p != "" then Some(ObjectId(p)) else None
      case None => None;
    Tweet.Tweet(
      id := input.id,
      userId := input.userId,
      tweetType := input.tweetType,
      audience := input.audience,
      content := input.content,
      parentId := parent,
      hashtags := input.hashtags,
      mentions := ToObjectIds(input.mentions),
      media := input.media,
      guestViews := CountOrZero(input.guestViews),
      userViews := CountOrZero(input.userViews),
      createdAt := input.createdAt.GetOr(now),
      updatedAt := input.updatedAt.GetOr(now))
  }

  /** `new ObjectId(text)` threw: `text` is not an id string. */
  datatype ConstructError = InvalidObjectId(text: string)

  /** The first of `ids` that `parses` rejects, if any. */
  function FirstUnparsed(ids: seq<string>, parses: string -> bool): (r: Option<string>)
    ensures r.None? <==> forall k :: 0 <= k < |ids| ==> parses(ids[k])
    ensures r.Some? ==> r.value in ids && !parses(r.value)
    ensures r.Some? ==> exists k :: 0 <= k < |ids| && ids[k] == r.value && forall j :: 0 <= j < k ==> parses(ids[j])
  {
    if ids == [] then None
    else if !parses(ids[0]) then Some(ids[0])
    else
      assert forall k :: 1 <= k < |ids| ==> ids[k] == ids[1..][k - 1];
      FirstUnparsed(ids[1..], parses)
  }

  /**
   * The constructor with its failure: `parses` holds of the strings
   * `new ObjectId` accepts. The mentions are converted first, then a truthy
   * parent id; the first string that does not convert makes it throw.
   */
  function ConstructTweet(input: TweetInput, now: Time, parses: string -> bool): (r: Result<Tweet, ConstructError>)
    ensures r.Err? <==>
              || (exists k :: 0 <= k < |input.mentions| && !parses(input.mentions[k]))
              || (input.parentId.Some? && input.parentId.value != "" && !parses(input.parentId.value))
    ensures r.Err? ==> !parses(r.error.text)
    ensures r.Err? && (exists k :: 0 <= k < |input.mentions| && !parses(input.mentions[k])) ==>
              exists k :: 0 <= k < |input.mentions| && input.mentions[k] == r.error.text &&
                forall j :: 0 <= j < k ==> parses(input.mentions[j])
    ensures r.Err? && r.error.text !in input.mentions ==> input.parentId == Some(r.error.text)
    ensures r.Ok? ==> r.value == NewTweet(input, now)
  {
    match FirstUnparsed(input.mentions, parses)
    case Some(m) => Err(InvalidObjectId(m))
    case None =>
      if input.parentId.Some? && input.parentId.value != "" && !parses(input.parentId.value) then
        Err(InvalidObjectId(input.parentId.value))
      else Ok(NewTweet(input, now))
  }

  /** With neither timestamp supplied, both come from the one construction time. */
  lemma FreshTimestampsAgree(input: TweetInput, now: Time)
    requires input.createdAt.None? && input.updatedAt.None?
    ensures NewTweet(input, now).createdAt == NewTweet(input, now).updatedAt == now
  {
  }

  /** The constructor's argument that describes an already built tweet. */
  function AsInput(t: Tweet): TweetInput {
    TweetInput(
      t.id, t.userId, t.tweetType, t.audience, t.content,
      if t.parentId.Some? then Some(t.parentId.value.hex) else None,
      t.hashtags, Hexes(t.mentions), t.media,
      Some(t.guestViews), Some(t.userViews), Some(t.createdAt), Some(t.updatedAt))
  }

  /** Mapping the mention strings to ids and back gives the strings again. */
  lemma {:induction false} MentionsRoundTrip(ids: seq<string>)
    ensures Hexes(ToObjectIds(ids)) == ids
  {
    if ids != [] {
      MentionsRoundTrip(ids[1..]);
    }
  }

  /**
   * Rebuilding a tweet from its own fields reproduces it, whatever the clock
   * says: the constructor's normalisation is idempotent. The one exception is
   * a parent id wrapping the empty string, which the constructor turns into null.
   */
  lemma {:induction false} RebuildIsIdentity(t: Tweet, now: Time)
    requires t.parentId != Some(ObjectId(""))
    ensures NewTweet(AsInput(t), now) == t
  {
    var r := NewTweet(AsInput(t), now);
    assert r.mentions == t.mentions by {
      assert |r.mentions| == |t.mentions|;
      forall k | 0 <= k < |t.mentions| ensures r.mentions[k] == t.mentions[k] {
        assert r.mentions[k] == ObjectId(Hexes(t.mentions)[k]);
      }
    }
    if t.parentId.Some? {
      assert r.parentId == Some(ObjectId(t.parentId.value.hex));
    }
  }
}

=== FILE: wrappers.dfy ===
/** Optional values and results with an error, shared by every module. */
module Wrappers {

  /** A value that may be missing (JavaScript `undefined`/`null` where the source allows it). */
  datatype Option<+T> = None | Some(value: T) {
    function GetOr(default: T): T {
      match this
      case Some(v) => v
      case None => default
    }
  }

  /** The outcome of an operation that either produces a value or fails with an error. */
  datatype Result<+T, +E> = Ok(value: T) | Err(error: E)
}
